=== FILE: README.md ===
# Key rotation, secret import and SSO unwrap — a Dafny model

This project models five pieces of logic in the passbolt browser extension:

- **Account recovery key rotation** (`AccountRecoveryModel`). Two predicates decide
  whether a new organization recovery key (ORK) must be signed and whether the
  former one must be revoked. `saveOrganizationSettings` then runs an
  all-or-nothing sequence: decrypt the former ORK if supplied, sign the new key
  with the admin key plus the former ORK, revoke the former key, and save last.
- **Import of passwords** (`ImportPasswordsController`). The controller's
  initial state and its progress objective. `_prepareResources` moves each
  clear secret into `message` and stamps the user id.
  `_addArmoredSecretsToResources` checks that the counts match and attaches the
  armored secrets.
- **SSO passphrase unwrap.** Two AES-GCM decryptions in a fixed order, with a
  distinct error for each stage.
- **Private key import during setup** (`ImportPrivateKeySetupController`). The
  constructor's checks. `exec` checks that the key is a private key and that the
  server does not already know it, and only then records both armors. `_exec`
  reports the outcome as one port message.
- **Base64 to blob** (`b64ToBlob`). The decoded binary string is cut into slices
  of `sliceSize` characters, and each slice becomes an array of byte values.

Cryptography, the API, the keyring, `atob` and base64 decoding (section 4 of
RFC 4648) are collaborators passed in as parameters. They take these forms:

- Most are functions that return a `Result` or an `Option`.
- The server verification of the setup import is a `bool`.
- The keyring sync of the import is a precomputed `Outcome`.
- The SSO base64 decoder is a total function to bytes.
- The admin's armored private key is a plain string.

Three modules record the collaborator calls they make, in order:

- Account recovery records decrypt, sign, revoke and save.
- The SSO unwrap records its decrypts.
- The setup import records the server verification calls.

Those contracts can therefore talk about call order and about calls that must
not happen. The other collaborators (`keyring.sync`, `encryptAll`,
`assertPrivateKeys`, `atob`) are not traced; they are called at most once and
only their answers matter.

Files:

- `wrappers.dfy`: `Option`, `Result` and `Outcome`.
- `account_recovery.dfy`: the rotation predicates, a tagged reference reading
  of their doc comments, and the save sequence with its call trace.
- `import_passwords.dfy`: the controller state, the preparation and attachment
  of secrets, and the `encryptSecrets` pipeline.
- `sso_passphrase.dfy`: the two-stage unwrap.
- `setup_import.dfy`: the setup controller.
- `file_chunks.dfy`: `b64ToBlob`, plus a functional `Chunks` reference with its
  lemmas.

### Where the code and its own doc comments disagree (the model follows the code)

The doc comment of `hasToSignTheNewKey` (accountRecoveryModel.js:103-104) says
the key is signed "if the policy is enabled and if the key is a new one". The
doc comment of `hasToRevokeTheFormerKey` (:116-117) says the key is revoked "if
the key changed and the old ORK wasn't disabled". The model reads both over a
tagged policy state `Active(key) | Off`, in which a disabled policy holds no
active key.

- **Signing.** `hasToSignTheNewKey` compares the *whole argument* with the
  string `"disabled"`, not its `policy` field. For two enabled entities this
  gives the documented rule (`SignAgreesWithDocumentedRuleWhenEnabled`).
  For two entities, `SignDepartsFromDocumentedRule` lists every pair on which
  it departs from that rule:
  - An entity whose `policy` is `"disabled"` still triggers a signature when
    its key differs from the former one (`SignOnDisablingEntity`).
  - Over a disabled former entity that still holds a key k, an enabled new
    entity with key k triggers none, although the documented rule asks for one.
  - Over that same former entity, an enabled new entity with no key triggers a
    signature, although the documented rule asks for none.

  With the bare string as the former policy, a new key triggers no signature
  (`NoSignAfterBareDisabled`).

  The model keeps the argument as a union `DisabledSentinel | Entity(dto)` so
  that the whole-argument comparison stays faithful.
- **Revocation.** For two entities, `hasToRevokeTheFormerKey` gives exactly the
  documented rule (`RevokeAgreesWithDocumentedRule`). A former policy given as
  the bare string has an undefined `.policy`, so the predicate treats it as
  enabled (`SentinelFormerPolicyRevokes`).
- **Bare string as the new policy.** Passing the bare string `"disabled"` as the
  new policy makes `toDto()` throw a TypeError before any crypto call.
- **Count mismatch on import.** `_addArmoredSecretsToResources` rejects but does
  not return. Its loop therefore still rewrites the first
  min(|armoredSecrets|, |resources|) resources, and the model keeps that state
  change.

The SSO unwrap follows its test: stage 1 uses `(key2, iv2)` and stage 2 uses
`(key1, iv1)`.

`b64ToBlob` is synchronous. When `atob` throws on invalid input, `b64ToBlob`
throws too. The model returns `Failure` for that throw.

## Model

| member | source | states |
|---|---|---|
| AccountRecovery.RevokeAgreesWithDocumentedRule | src/all/background_page/model/accountRecovery/accountRecoveryModel.js:115-128 | For any two policy entities, revocation is required exactly when the doc comment's rule requires it: the former policy is enabled, and the new one is disabled or holds a different key |
| AccountRecovery.DisabledFormerPolicyNeverRevokes | src/all/background_page/model/accountRecovery/accountRecoveryModel.js:124-127 | When the former entity's policy is "disabled", no revocation is required, whatever the new argument is |
| AccountRecovery.SentinelFormerPolicyRevokes | src/all/background_page/model/accountRecovery/accountRecoveryModel.js:123-127 | When the former policy is the bare string, revocation is required exactly when the new argument has a key or a "disabled" policy |
| AccountRecovery.SentinelNeverSigns | src/all/background_page/model/accountRecovery/accountRecoveryModel.js:110-111 | When either argument is the literal "disabled", signing is never required |
| AccountRecovery.SignAgreesWithDocumentedRuleWhenEnabled | src/all/background_page/model/accountRecovery/accountRecoveryModel.js:102-113 | For two enabled entities, signing is required exactly when the doc comment's rule requires it: the new key is not the former active key |
| AccountRecovery.SignDepartsFromDocumentedRule | src/all/background_page/model/accountRecovery/accountRecoveryModel.js:102-113 | For any two entities, the code and the documented rule disagree exactly when either the new policy is "disabled" and the keys differ, or the new policy is enabled, the former is "disabled" but still holds a key, and the new key is that same key or absent |
| AccountRecovery.SignOnDisablingEntity | src/all/background_page/model/accountRecovery/accountRecoveryModel.js:102-113 | Disabling through an entity with a different key requires a signature, which the documented rule does not |
| AccountRecovery.NoSignAfterBareDisabled | src/all/background_page/model/accountRecovery/accountRecoveryModel.js:102-113 | A new enabled key over a former policy given as the bare string requires no signature, although the documented rule requires one |
| AccountRecovery.UnchangedPolicyIsNoOp | src/all/background_page/model/accountRecovery/accountRecoveryModel.js:109-128 | Two enabled entities with the same key need neither a signature nor a revocation |
| AccountRecovery.ReplacedKeySignsAndRevokes | src/all/background_page/model/accountRecovery/accountRecoveryModel.js:109-128 | A key replaced under an enabled former policy needs both a signature and a revocation |
| AccountRecovery.SigningKeys | src/all/background_page/model/accountRecovery/accountRecoveryModel.js:78-84 | The signer list is the admin key, then the former ORK when one was decrypted, and nothing else |
| AccountRecovery.WithArmoredKey | src/all/background_page/model/accountRecovery/accountRecoveryModel.js:87-88 | After the write, the association's `armored_key` is the new value, it keeps its other fields, and a missing association starts out empty |
| AccountRecovery.DecryptFormerOrk | src/all/background_page/model/accountRecovery/accountRecoveryModel.js:66-68 | With no former ORK there is no call and the result is null. Otherwise there is exactly one decrypt call. The step succeeds if and only if that decrypt succeeds, and then yields the decrypted key. A failure carries the decrypt's error |
| AccountRecovery.SignStage | src/all/background_page/model/accountRecovery/accountRecoveryModel.js:70-89 | With no signature required, nothing is called and the DTO is unchanged. Otherwise the admin key is decrypted first. A failed admin decrypt stops the stage there. Otherwise one sign call follows, with the key to sign and the signers [admin, former ORK?]. The stage succeeds if and only if that call succeeds, and then only the public key's `armored_key` is replaced by the signed key. A failure carries the failing call's error |
| AccountRecovery.RevokeStage | src/all/background_page/model/accountRecovery/accountRecoveryModel.js:91-95 | With no revocation required, nothing is called and the DTO is unchanged. Otherwise there is exactly one revoke call on the decrypted former ORK (or null). The stage succeeds if and only if that call succeeds, and then only the revoked key's `armored_key` is replaced by the revoked key. A failure carries the call's error |
| AccountRecovery.RunStages | src/all/background_page/model/accountRecovery/accountRecoveryModel.js:70-95 | The two stages succeed if and only if every collaborator they need succeeds. Their calls are always a prefix of the source order (admin decrypt, sign call, revoke call), and all of it on success. A failure therefore comes from the first call in that order that fails, and no later call is made. In particular, a failed signing stage means no revoke call. On success they yield the DTO with the signed key and the revoked key written where required and everything else as given |
| AccountRecovery.StagesInOrder | src/all/background_page/model/accountRecovery/accountRecoveryModel.js:70-95 | A failed signing stage is the end of both stages. Otherwise the revoking stage runs on the signed DTO, and its calls follow the signing calls |
| AccountRecovery.PrepareDto | src/all/background_page/model/accountRecovery/accountRecoveryModel.js:64-95 | A DTO comes out if and only if every needed collaborator succeeds: the former-ORK decrypt when supplied, the admin decrypt and the signature when signing, and the revocation when revoking. The calls are always a prefix of the source order: former-ORK decrypt, admin decrypt, sign, revoke. On success they are the whole of it. A failure stops at the first call in that order that fails, carries its error, and makes no later call. On success the DTO is the input one with the signed key and the revoked key written where required. Nothing here saves, and the admin key is decrypted only when signing |
| AccountRecovery.PreparedByStages | src/all/background_page/model/accountRecovery/accountRecoveryModel.js:64-95 | After a successful former-ORK decrypt, a failed signing stage ends the steps with its calls and error. Otherwise the steps are the decrypt, signing and revoking calls in that order, with the revoking stage's outcome |
| AccountRecovery.SaveOrganizationSettings | src/all/background_page/model/accountRecovery/accountRecoveryModel.js:55-100 | The save is the last call, so it happens at most once. For an entity the API is reached if and only if every needed collaborator succeeds, and only after all earlier calls succeeded. The calls before the save are a prefix of the source order (former-ORK decrypt, admin decrypt, sign, revoke), and all of it when the API is reached. A rejection therefore carries the error of the first failing call in that order, or the save's error. A resolved run yields the entity built from what the API returned. The admin key is decrypted only when signing. The revoked-key contain flag equals the revocation decision. The bare string as new policy fails with a TypeError before any call |
| AccountRecovery.SavePrepared | src/all/background_page/model/accountRecovery/accountRecoveryModel.js:97-99 | A failed preparation is passed on unchanged and nothing is saved. Otherwise exactly one save call is appended, carrying the prepared DTO and the contain flags. The run resolves exactly when the API accepts, with the entity built from its answer, and otherwise rejects with the API's error |
| AccountRecovery.SavedRun | src/all/background_page/model/accountRecovery/accountRecoveryModel.js:55-99 | A run that reached the API sent, as its one last call, the DTO that the steps before the save produced, with the contain flags |
| AccountRecovery.SavedRunStages | src/all/background_page/model/accountRecovery/accountRecoveryModel.js:64-98 | A run that reached the API went through the decrypt, sign and revoke stages successfully, in that order, and sent the DTO they produced |
| AccountRecovery.FormerOrkDecryptFailureAborts | src/all/background_page/model/accountRecovery/accountRecoveryModel.js:66-68 | A failing decrypt of the supplied former ORK rejects with its error, and that decrypt is the only call made |
| AccountRecovery.SignFailureEndsRun | src/all/background_page/model/accountRecovery/accountRecoveryModel.js:70-89 | When the signing stage fails (the admin decrypt or the signature), the run rejects with that error after the former-ORK decrypt and the signing calls only. No revoke call and no save are made |
| AccountRecovery.RevokeFailureEndsRun | src/all/background_page/model/accountRecovery/accountRecoveryModel.js:91-95 | When signing succeeded or was not needed and the revocation fails, the run rejects with the revocation's error after the decrypt, signing and revoke calls. No save is made |
| AccountRecovery.RejectsAtFirstFailingCall | src/all/background_page/model/accountRecovery/accountRecoveryModel.js:64-95 | A run that rejects before reaching the API made exactly the source-order calls up to and including the first one that fails, and rejects with that call's error |
| AccountRecovery.SigningChainOfTrust | src/all/background_page/model/accountRecovery/accountRecoveryModel.js:70-89 | When signing and the save was reached, the new key is signed by exactly [admin key, former ORK if supplied]. The signed key replaces only `public_key.armored_key` in the saved DTO |
| AccountRecovery.RevocationAttached | src/all/background_page/model/accountRecovery/accountRecoveryModel.js:91-95 | When revoking and the save was reached, the decrypted former ORK (or null) was revoked, and the result is the saved `revoked_key.armored_key` |
| AccountRecovery.NoActionPassesThrough | src/all/background_page/model/accountRecovery/accountRecoveryModel.js:64-98 | With neither action required, the calls are the optional former-ORK decrypt and then one save of the DTO exactly as `toDto()` gave it |
| AccountRecovery.OtherFieldsUnchanged | src/all/background_page/model/accountRecovery/accountRecoveryModel.js:64-98 | The saved DTO keeps the policy and every other field. An association that no action touched is passed through unchanged |
| ImportPasswords.NewController | src/all/background_page/controller/importPasswordsController.js:22-27 | A new controller has objective 0, status 0 and no resources, so the objective already covers its resources |
| ImportPasswords.PrepareResources | src/all/background_page/controller/importPasswordsController.js:189-197 | Length and order are preserved. Each resource gets `userId` = the given id and `message` = its former `secretClear`, loses `secretClear`, and keeps every other field |
| ImportPasswords.AddArmoredSecretsToResources | src/all/background_page/controller/importPasswordsController.js:160-180 | On a count mismatch the result is the rejection "There was a problem while encrypting the secrets". Otherwise it resolves with the resources. Each resource the loop reaches gets `secrets = [{data: armoredSecrets[i]}]` exactly when its message is not '', loses `message` and `userId`, and keeps all other fields. Resources past the loop are unchanged |
| ImportPasswords.PrepareThenAttach | src/all/background_page/controller/importPasswordsController.js:160-197 | Preparing and then attaching one resource equals the reference import: the clear secret is gone, no helper field remains, and the armored secret is attached exactly when the clear secret was not '' |
| ImportPasswords.EncryptSecrets | src/all/background_page/controller/importPasswordsController.js:71-94 | The progress objective is twice the number of resources. A sync failure rejects with its error and leaves the resources as given. An encryption failure rejects with its error, and the resources are left prepared. The run resolves if and only if sync and encryption succeed with one secret per resource. Whenever encryption succeeds, the resources the loop reaches are the reference import of their originals, and the rest stay prepared. A resolved run yields those resources |
| SsoPassphrase.DecryptSsoPassphrase | src/all/background_page/service/crypto/decryptSsoPassphraseService.test.js:33-101 | Stage 1 decrypts the base64-decoded input with AES-GCM, iv2 and key2. Its failure, and only that, gives OutdatedSsoKitError after a single call. Otherwise stage 2 decrypts the stage-1 output with AES-GCM, iv1 and key1. Its failure gives UnexpectedSsoKitDecryptionError, and its success gives the stage-2 output after exactly two calls |
| SsoPassphrase.UnwrapRoundTrip | src/all/background_page/service/crypto/decryptSsoPassphraseService.test.js:33-67 | Encrypting under (key1, iv1), then (key2, iv2), then base64-encoding unwraps back to the passphrase in two calls, given inverse encode/decode and encrypt/decrypt |
| SsoPassphrase.FailureKindsAreDistinct | src/all/background_page/service/crypto/decryptSsoPassphraseService.test.js:69-101 | A stage-1 failure yields OutdatedSsoKitError. A stage-1 success followed by a stage-2 failure yields UnexpectedSsoKitDecryptionError |
| SetupImport.NewController | src/all/background_page/controller/setup/importPrivateKeySetupController.js:27-40 | Construction succeeds if and only if the argument is a SetupEntity. A falsy argument and an object of another class fail with their two distinct messages |
| SetupImport.AssertImportKeyNotUsed | src/all/background_page/controller/setup/importPrivateKeySetupController.js:76-94 | A missing or empty server key fails before any verify call. Otherwise there is exactly one verify call, and the check raises GpgKeyError "already used" exactly when verification succeeds |
| SetupImport.Exec | src/all/background_page/controller/setup/importPrivateKeySetupController.js:62-67 | A failing key-form assertion propagates with no verify call. A missing server key fails before verification. The import succeeds exactly when the server verification fails. Both armored keys are written only on success, and any error leaves the entity unchanged |
| SetupImport.ExecAndReport | src/all/background_page/controller/setup/importPrivateKeySetupController.js:47-55 | Exactly one message is emitted for the request: SUCCESS with no error if `exec` succeeded, otherwise ERROR carrying `exec`'s error |
| FileChunks.ByteNumbers | src/all/background_page/controller/fileController.js:60-63 | One byte per character of the slice, each one the character's code |
| FileChunks.SliceToByteArrays | src/all/background_page/controller/fileController.js:57-68 | The slicing loop yields exactly the reference chunking of the decoded byte values |
| FileChunks.B64ToBlob | src/all/background_page/controller/fileController.js:50-72 | A falsy content type becomes '' and a falsy slice size becomes 512. The result is a failure exactly when `atob` throws. Otherwise the parts are the reference chunking of the decoded byte values: they concatenate to those bytes, and there are ceil(n / sliceSize) of them. Each part is non-empty and at most sliceSize long, and all but the last are exactly sliceSize long. Byte j of part k is the code of decoded character k * sliceSize + j |
| FileChunks.ChunksAreSlicing | src/all/background_page/controller/fileController.js:54-68 | The reference chunking of the decoded byte values has every property of a slicing listed for `B64ToBlob` |
| FileChunks.ChunksFlatten | src/all/background_page/controller/fileController.js:54-68 | Concatenating the chunks gives back the input, in order |
| FileChunks.ChunksCount | src/all/background_page/controller/fileController.js:57-58 | The loop makes ceil(n / size) slices, and none for empty input |
| FileChunks.ChunksLengths | src/all/background_page/controller/fileController.js:57-58 | Every slice is non-empty and at most size long, and all but the last are exactly size long |
| FileChunks.ChunksIndex | src/all/background_page/controller/fileController.js:57-63 | Element j of chunk k is input element k * size + j |

## Left out

- `AccountRecoveryModel.find` and its constructor: an API fetch and service wiring.
- The API save itself: it is modelled only as the recorded final call and its returned DTO.
- The validation inside `new AccountRecoveryOrganizationPolicyEntity(dto)` and the filtering done by `toDto(contains)`: the entity class is not part of this model. The save request records the DTO together with the contain flags.
- AccountRecovery.SentinelFormerPolicyRevokes: assumes that the entity's `armoredKey` getter, whose class is not part of this model, reads the public key association's `armored_key` and yields `undefined` for an absent key, which equals the bare string's `.armoredKey`. A getter that returned `null` would make a keyless new entity over the bare string revoke, and the lemma would not hold.
- AccountRecovery.SigningChainOfTrust: assumes that `toDto()` with no argument includes both key associations, since the entity class is not part of this model. Its claim that untouched associations reach the API depends on this.
- AccountRecovery.NoActionPassesThrough: assumes, as above, that `toDto()` with no argument includes both key associations. Without it, the DTO sent could lack an association the entity holds.
- AccountRecovery.OtherFieldsUnchanged: rests on the same `toDto()` assumption.
- `keyring.findPrivate()` returning nothing: the admin's armored key is a given string.
- `DecryptPrivateKeyService`, `SignGpgKeyService`, `RevokeGpgKeyService` and `ExternalGpgKeyEntity` validation: OpenPGP primitives, kept uninterpreted. Any failure they raise is a `Failure` from the corresponding function.
- The SSO service source (`decryptSsoPassphraseService.js`) is not part of this model. Its contract comes from the three cases of its test. Base64 decoding and AES-GCM are abstract, and decoding is taken never to fail, as Node's `Buffer.from(…, 'base64')` does not.
- `ImportPasswordsController.initFromKdbx` and `initFromCsv`: the file parsers are not part of this model.
- `ImportPasswordsController.saveResources`: concurrent API saves and progress reporting.
- The progress dialog (open, update, close), the `progressStatus` increments made by the encryption callbacks, and the internals of `keyring.sync` and `crypto.encryptAll`. Sync is an outcome and encryption a function from resources to armored secrets.
- ImportPasswords.EncryptSecrets: resources are values, not shared objects. In the source, `this.resources` and the caller's array hold the same objects, so the rewrites of `_prepareResources` and `_addArmoredSecretsToResources` are also visible through the caller's references. The model states those rewrites on the controller's `resources` only.
- Calls to `keyring.sync`, `encryptAll`, `assertPrivateKeys` and `atob` are not recorded in a trace. Each is made at most once, and the contracts speak only of its answer.
- `fileController.saveFile`, `loadFile` and the `Blob` object itself: browser I/O. The blob is represented by its constructor's arguments.
- FileChunks.B64ToBlob: requires a non-negative integer slice size. A negative one makes the source loop forever on non-empty input, and fractional sizes or non-numeric values are not modelled. The falsy content types are modelled as absent or '', not 0, false or NaN.
- SetupImport.Exec: does not model timeouts or other unexpected errors of the server verification separately. As in the source, every failure of verification counts as "key not used".
- Worker ports, `GpgAuth` construction, `console.error` and i18n translation: the English message text is kept.
- The event wiring files, the React login bootstrap, the SSO configuration controller, the passphrase check service and the SHA-1 helper: wrappers with no logic of this core.

=== FILE: account_recovery.dfy ===
/** The account-recovery model: when the organization recovery key (ORK) must be
    signed or revoked on a policy change, and the all-or-nothing sequence of
    decrypt, sign, revoke and save that applies the change.

    The JavaScript functions receive either a policy entity or, in some call
    paths, the bare string "disabled"; `PolicyArg` keeps both shapes so that the
    comparisons made against the whole argument stay what they are in the code. */
module AccountRecovery {
  import opened Wrappers

  /** The policy value meaning "account recovery is off". */
  const DISABLED: string := "disabled"

  /** A gpg key association inside a policy DTO: its `armored_key` field and
      whatever other fields (fingerprint, id, ...) it carries. */
  datatype KeyDto = KeyDto(armoredKey: Option<string>, otherFields: map<string, string>)

  /** The organization policy DTO, with the two key associations the save
      operation may touch. */
  datatype PolicyDto = PolicyDto(
    policy: string,
    publicKey: Option<KeyDto>,
    revokedKey: Option<KeyDto>,
    otherFields: map<string, string>)

  /** What `saveOrganizationSettings`, `hasToSignTheNewKey` and
      `hasToRevokeTheFormerKey` may receive: the string "disabled" or an entity. */
  datatype PolicyArg = DisabledSentinel | Entity(dto: PolicyDto)

  /** `arg.policy`: undefined (None) when the argument is the bare string. */
  function PolicyField(arg: PolicyArg): Option<string>
  {
    match arg
    case DisabledSentinel => None
    case Entity(dto) => Some(dto.policy)
  }

  /** `arg.armoredKey`: the public key's armored text, undefined (None) when the
      argument is the bare string or the entity has no such key. */
  function ArmoredKeyField(arg: PolicyArg): Option<string>
  {
    match arg
    case DisabledSentinel => None
    case Entity(dto) => if dto.publicKey.Some? then dto.publicKey.value.armoredKey else None
  }

  /** `hasToSignTheNewKey`, as written: the "disabled" test is made against the
      whole argument, not against its `policy` field. */
  predicate HasToSignTheNewKey(newPolicy: PolicyArg, oldPolicy: PolicyArg)
  {
    && newPolicy != DisabledSentinel
    && oldPolicy != DisabledSentinel
    && ArmoredKeyField(oldPolicy) != ArmoredKeyField(newPolicy)
  }

  /** `hasToRevokeTheFormerKey`, as written: here the `policy` field is compared. */
  predicate HasToRevokeTheFormerKey(newPolicy: PolicyArg, oldPolicy: PolicyArg)
  {
    var newPolicyIsDisabled := PolicyField(newPolicy) == Some(DISABLED);
    var oldPolicyIsEnabled := PolicyField(oldPolicy) != Some(DISABLED);
    var keyHasChanged := ArmoredKeyField(newPolicy) != ArmoredKeyField(oldPolicy);
    oldPolicyIsEnabled && (keyHasChanged || newPolicyIsDisabled)
  }

  // ---------------------------------------------------------------------------
  // The rules as the doc comments of the two predicates word them: sign "if the
  // policy is enabled and if the key is a new one", revoke "if the key changed
  // and the old ORK wasn't disabled". They are read over a tagged state in which
  // a disabled policy holds no active key, so switching a policy off drops (and
  // thus changes) its key. Used as the independent reference for the predicates.
  // ---------------------------------------------------------------------------

  datatype PolicyState = Active(key: Option<string>) | Off

  function StateOf(arg: PolicyArg): PolicyState
  {
    match arg
    case DisabledSentinel => Off
    case Entity(dto) => if dto.policy == DISABLED then Off else Active(ArmoredKeyField(arg))
  }

  function ActiveKey(p: PolicyState): Option<string>
  {
    if p.Active? then p.key else None
  }

  /** Sign when the new policy is enabled and its key is not the former active key. */
  predicate DocumentedSign(newPolicy: PolicyState, oldPolicy: PolicyState)
  {
    newPolicy.Active? && newPolicy.key != ActiveKey(oldPolicy)
  }

  /** Revoke when the former policy was enabled and its key changed or went away. */
  predicate DocumentedRevoke(newPolicy: PolicyState, oldPolicy: PolicyState)
  {
    oldPolicy.Active? && (newPolicy.Off? || newPolicy.key != oldPolicy.key)
  }

  /** For two entities the revocation decision is exactly the documented one. */
  lemma RevokeAgreesWithDocumentedRule(newPolicy: PolicyArg, oldPolicy: PolicyArg)
    requires newPolicy.Entity? && oldPolicy.Entity?
    ensures HasToRevokeTheFormerKey(newPolicy, oldPolicy)
            <==> DocumentedRevoke(StateOf(newPolicy), StateOf(oldPolicy))
  {
  }

  /** A disabled former policy never asks for a revocation, whatever the new one is. */
  lemma DisabledFormerPolicyNeverRevokes(newPolicy: PolicyArg, oldPolicy: PolicyArg)
    requires oldPolicy.Entity? && oldPolicy.dto.policy == DISABLED
    ensures !HasToRevokeTheFormerKey(newPolicy, oldPolicy)
  {
  }

  /** The bare string "disabled" on either side switches signing off. */
  lemma SentinelNeverSigns(newPolicy: PolicyArg, oldPolicy: PolicyArg)
    requires newPolicy.DisabledSentinel? || oldPolicy.DisabledSentinel?
    ensures !HasToSignTheNewKey(newPolicy, oldPolicy)
  {
  }

  /** When both entities are enabled the signing decision is the documented one. */
  lemma SignAgreesWithDocumentedRuleWhenEnabled(newPolicy: PolicyArg, oldPolicy: PolicyArg)
    requires newPolicy.Entity? && oldPolicy.Entity?
    requires newPolicy.dto.policy != DISABLED && oldPolicy.dto.policy != DISABLED
    ensures HasToSignTheNewKey(newPolicy, oldPolicy)
            <==> DocumentedSign(StateOf(newPolicy), StateOf(oldPolicy))
  {
  }

  /** Every pair of entities on which the signing decision departs from the
      documented one. A new entity whose policy is "disabled" is signed whenever
      its key differs from the former one, which the documented rule never does.
      An enabled new entity over a disabled former entity that still holds a key
      k departs exactly when the new key is k (not signed, though new to an off
      policy) or absent (signed, though there is nothing to sign). */
  lemma SignDepartsFromDocumentedRule(newPolicy: PolicyArg, oldPolicy: PolicyArg)
    requires newPolicy.Entity? && oldPolicy.Entity?
    ensures HasToSignTheNewKey(newPolicy, oldPolicy) != DocumentedSign(StateOf(newPolicy), StateOf(oldPolicy))
            <==> if newPolicy.dto.policy == DISABLED then
                   ArmoredKeyField(newPolicy) != ArmoredKeyField(oldPolicy)
                 else
                   && oldPolicy.dto.policy == DISABLED
                   && ArmoredKeyField(oldPolicy).Some?
                   && ArmoredKeyField(newPolicy) in {ArmoredKeyField(oldPolicy), None}
  {
  }

  /** Disabling through an entity (rather than the bare string) whose key differs
      from the former one asks for a signature, which the documented rule never
      does for a disabled policy. */
  lemma SignOnDisablingEntity(oldKey: string)
    ensures var oldPolicy := Entity(PolicyDto("opt-in", Some(KeyDto(Some(oldKey), map[])), None, map[]));
            var newPolicy := Entity(PolicyDto(DISABLED, None, None, map[]));
            HasToSignTheNewKey(newPolicy, oldPolicy)
            && !DocumentedSign(StateOf(newPolicy), StateOf(oldPolicy))
  {
  }

  /** Enabling a key over a former policy given as the bare string asks for no
      signature, although the documented rule asks for one (the key is new). */
  lemma NoSignAfterBareDisabled(newKey: string)
    ensures var newPolicy := Entity(PolicyDto("opt-in", Some(KeyDto(Some(newKey), map[])), None, map[]));
            !HasToSignTheNewKey(newPolicy, DisabledSentinel)
            && DocumentedSign(StateOf(newPolicy), StateOf(DisabledSentinel))
  {
  }

  /** A former policy given as the bare string reads `.policy` as undefined, so the
      revocation predicate treats it as enabled. */
  lemma SentinelFormerPolicyRevokes(newPolicy: PolicyArg)
    ensures HasToRevokeTheFormerKey(newPolicy, DisabledSentinel)
            <==> ArmoredKeyField(newPolicy).Some? || PolicyField(newPolicy) == Some(DISABLED)
  {
  }

  /** Re-submitting an unchanged enabled policy triggers neither a signature nor a revocation. */
  lemma UnchangedPolicyIsNoOp(newPolicy: PolicyArg, oldPolicy: PolicyArg)
    requires newPolicy.Entity? && oldPolicy.Entity?
    requires newPolicy.dto.policy != DISABLED && oldPolicy.dto.policy != DISABLED
    requires ArmoredKeyField(newPolicy) == ArmoredKeyField(oldPolicy)
    ensures !HasToSignTheNewKey(newPolicy, oldPolicy)
    ensures !HasToRevokeTheFormerKey(newPolicy, oldPolicy)
  {
  }

  /** Both actions at once: an enabled policy whose key is replaced. */
  lemma ReplacedKeySignsAndRevokes(newPolicy: PolicyArg, oldPolicy: PolicyArg)
    requires newPolicy.Entity? && oldPolicy.Entity?
    requires oldPolicy.dto.policy != DISABLED
    requires ArmoredKeyField(newPolicy) != ArmoredKeyField(oldPolicy)
    ensures HasToSignTheNewKey(newPolicy, oldPolicy)
    ensures HasToRevokeTheFormerKey(newPolicy, oldPolicy)
  {
  }

  // ---------------------------------------------------------------------------
  // saveOrganizationSettings
  // ---------------------------------------------------------------------------

  /** A private key entity: armored text and the passphrase that unlocks it. */
  datatype PrivateKeyEntity = PrivateKeyEntity(armoredKey: string, passphrase: Option<string>)

  /** A decrypted private key, as handed to the signing and revoking services. */
  datatype DecryptedKey = DecryptedKey(armoredKey: string)

  /** The association flags passed to `toDto` before the save. */
  datatype Contains = Contains(publicKey: bool, privateKeyPasswords: bool, revokedKey: bool)

  datatype SaveRequest = SaveRequest(dto: PolicyDto, contains: Contains)

  datatype Error =
    | TypeError(message: string)
    | ServiceError(message: string)

  /** Whose private key a decrypt call unlocks. */
  datatype KeyRole = FormerOrganizationKey | AdminKey

  /** One call into a collaborator, in the order it is made. */
  datatype Call =
    | DecryptCall(role: KeyRole, key: PrivateKeyEntity)
    | SignCall(keyToSign: Option<string>, signers: seq<string>)
    | RevokeCall(revokedKey: Option<DecryptedKey>)
    | SaveCall(request: SaveRequest)

  /** The collaborators: private-key decryption, key signing, key revocation,
      the API save, and the admin's armored private key from the keyring. */
  datatype Services = Services(
    decrypt: PrivateKeyEntity -> Result<DecryptedKey, Error>,
    sign: (Option<string>, seq<string>) -> Result<string, Error>,
    revoke: Option<DecryptedKey> -> Result<string, Error>,
    save: SaveRequest -> Result<PolicyDto, Error>,
    adminArmoredKey: string)

  /** A partial run: the calls made so far and the value or error reached. */
  datatype Step<T> = Step(calls: seq<Call>, result: Result<T, Error>)

  /** A full run of `saveOrganizationSettings`: every call made, and the saved
      policy or the error the promise rejects with. */
  datatype Run = Run(calls: seq<Call>, result: Result<PolicyArg, Error>)

  const TO_DTO_TYPE_ERROR: string := "accountRecoveryOrganizationPolicyEntity.toDto is not a function"

  /** The run reached the API: one of its calls is the save. */
  predicate SaveIssued(calls: seq<Call>)
  {
    exists i :: 0 <= i < |calls| && calls[i].SaveCall?
  }

  /** No call in `calls` is the save. */
  predicate NoSaveCall(calls: seq<Call>)
  {
    forall i | 0 <= i < |calls| :: !calls[i].SaveCall?
  }

  /** Every call in `calls` is a crypto call that its collaborator answered with success. */
  predicate CallsSucceeded(calls: seq<Call>, s: Services)
  {
    forall i | 0 <= i < |calls| ::
      match calls[i]
      case DecryptCall(_, k) => s.decrypt(k).Success?
      case SignCall(k, signers) => s.sign(k, signers).Success?
      case RevokeCall(k) => s.revoke(k).Success?
      case SaveCall(_) => false
  }

  /** The collaborator answered the call `c` with the error `e`. */
  predicate CallFailedWith(c: Call, e: Error, s: Services)
  {
    match c
    case DecryptCall(_, k) => s.decrypt(k) == Failure(e)
    case SignCall(k, signers) => s.sign(k, signers) == Failure(e)
    case RevokeCall(k) => s.revoke(k) == Failure(e)
    case SaveCall(request) => s.save(request) == Failure(e)
  }

  /** A run that rejects with `e` stopped at its first failing call: every call
      before the last one succeeded, and the last one failed with `e`. */
  predicate StoppedAt(calls: seq<Call>, e: Error, s: Services)
  {
    |calls| > 0 && CallsSucceeded(calls[..|calls| - 1], s) && CallFailedWith(calls[|calls| - 1], e, s)
  }

  function AdminKeyEntity(s: Services, adminPassphrase: string): PrivateKeyEntity
  {
    PrivateKeyEntity(s.adminArmoredKey, Some(adminPassphrase))
  }

  /** The chain of trust that signs a new ORK: the admin key, then the former ORK
      when one was supplied. */
  function SigningKeys(admin: DecryptedKey, formerOrk: Option<DecryptedKey>): (keys: seq<string>)
    ensures |keys| == if formerOrk.Some? then 2 else 1
    ensures keys[0] == admin.armoredKey
    ensures formerOrk.Some? ==> keys[1] == formerOrk.value.armoredKey
  {
    [admin.armoredKey] + (if formerOrk.Some? then [formerOrk.value.armoredKey] else [])
  }

  /** `association = association || {}; association.armored_key = armored`. */
  function WithArmoredKey(association: Option<KeyDto>, armored: string): (k: KeyDto)
    ensures k.armoredKey == Some(armored)
    ensures k.otherFields == if association.Some? then association.value.otherFields else map[]
  {
    match association
    case None => KeyDto(Some(armored), map[])
    case Some(kd) => kd.(armoredKey := Some(armored))
  }

  /** The former ORK once decrypted, or null when none was supplied. */
  function DecryptedFormerOrk(formerOrk: Option<PrivateKeyEntity>, s: Services): Option<DecryptedKey>
    requires formerOrk.Some? ==> s.decrypt(formerOrk.value).Success?
  {
    if formerOrk.Some? then Some(s.decrypt(formerOrk.value).value) else None
  }

  /** The collaborators of the two stages answer with success, given the
      decrypted former ORK: the admin decrypt and the signature when signing, and
      the revocation when revoking. */
  predicate StagesSucceed(newPolicy: PolicyArg, oldPolicy: PolicyArg,
                          decryptedOldOrk: Option<DecryptedKey>, adminPassphrase: string, s: Services)
  {
    var admin := AdminKeyEntity(s, adminPassphrase);
    && (HasToSignTheNewKey(newPolicy, oldPolicy) ==>
          && s.decrypt(admin).Success?
          && s.sign(ArmoredKeyField(newPolicy), SigningKeys(s.decrypt(admin).value, decryptedOldOrk)).Success?)
    && (HasToRevokeTheFormerKey(newPolicy, oldPolicy) ==> s.revoke(decryptedOldOrk).Success?)
  }

  /** Every collaborator the run needs answers with success: the decrypt of the
      former ORK when one is supplied, then those of the two stages. */
  predicate CollaboratorsSucceed(newPolicy: PolicyArg, oldPolicy: PolicyArg,
                                 formerOrk: Option<PrivateKeyEntity>, adminPassphrase: string, s: Services)
  {
    && (formerOrk.Some? ==> s.decrypt(formerOrk.value).Success?)
    && StagesSucceed(newPolicy, oldPolicy, DecryptedFormerOrk(formerOrk, s), adminPassphrase, s)
  }

  // ---------------------------------------------------------------------------
  // The calls of lines 66-92 in the order the source awaits them: the former ORK
  // decrypt when one is supplied, the admin decrypt and the sign call when
  // signing, the revoke call when revoking. A call is listed only when the calls
  // before it leave its arguments defined; every run makes a prefix of this
  // sequence, so a rejection comes from the first call in it that fails.
  // ---------------------------------------------------------------------------

  /** The signing calls in order: the admin decrypt, then the sign call once the
      admin key is decrypted. */
  function SigningCalls(newPolicy: PolicyArg, oldPolicy: PolicyArg, decryptedOldOrk: Option<DecryptedKey>,
                        adminPassphrase: string, s: Services): seq<Call>
  {
    var admin := AdminKeyEntity(s, adminPassphrase);
    if !HasToSignTheNewKey(newPolicy, oldPolicy) then []
    else if s.decrypt(admin).Failure? then [DecryptCall(AdminKey, admin)]
    else [DecryptCall(AdminKey, admin),
          SignCall(ArmoredKeyField(newPolicy), SigningKeys(s.decrypt(admin).value, decryptedOldOrk))]
  }

  /** The calls of both stages in source order, given the decrypted former ORK. */
  function StageCalls(newPolicy: PolicyArg, oldPolicy: PolicyArg, decryptedOldOrk: Option<DecryptedKey>,
                      adminPassphrase: string, s: Services): seq<Call>
  {
    SigningCalls(newPolicy, oldPolicy, decryptedOldOrk, adminPassphrase, s)
    + (if HasToRevokeTheFormerKey(newPolicy, oldPolicy) then [RevokeCall(decryptedOldOrk)] else [])
  }

  /** Every call before the save, in source order. */
  function SourceOrderCalls(newPolicy: PolicyArg, oldPolicy: PolicyArg, formerOrk: Option<PrivateKeyEntity>,
                            adminPassphrase: string, s: Services): seq<Call>
  {
    match formerOrk
    case None => StageCalls(newPolicy, oldPolicy, None, adminPassphrase, s)
    case Some(k) =>
      [DecryptCall(FormerOrganizationKey, k)]
      + (if s.decrypt(k).Failure? then []
         else StageCalls(newPolicy, oldPolicy, Some(s.decrypt(k).value), adminPassphrase, s))
  }

  /** Decrypt the former ORK when one is supplied. */
  function DecryptFormerOrk(formerOrk: Option<PrivateKeyEntity>, s: Services): (st: Step<Option<DecryptedKey>>)
    ensures formerOrk.None? ==> st == Step([], Success(None))
    ensures formerOrk.Some? ==> st.calls == [DecryptCall(FormerOrganizationKey, formerOrk.value)]
    ensures st.result.Success? <==> (formerOrk.Some? ==> s.decrypt(formerOrk.value).Success?)
    ensures st.result.Success? ==> st.result.value == DecryptedFormerOrk(formerOrk, s) && CallsSucceeded(st.calls, s)
    ensures st.result.Failure? ==> StoppedAt(st.calls, st.result.error, s)
  {
    match formerOrk
    case None => Step([], Success(None))
    case Some(k) =>
      match s.decrypt(k)
      case Failure(e) => Step([DecryptCall(FormerOrganizationKey, k)], Failure(e))
      case Success(d) => Step([DecryptCall(FormerOrganizationKey, k)], Success(Some(d)))
  }

  /** Decrypt the admin key, sign the new ORK with the chain of trust, and put
      the signed key in the DTO's public key association. */
  function SignNewKey(dto: PolicyDto, keyToSign: Option<string>, formerOrk: Option<DecryptedKey>,
                      adminPassphrase: string, s: Services): (st: Step<PolicyDto>)
  {
    var admin := AdminKeyEntity(s, adminPassphrase);
    match s.decrypt(admin)
    case Failure(e) => Step([DecryptCall(AdminKey, admin)], Failure(e))
    case Success(decryptedAdmin) =>
      var signers := SigningKeys(decryptedAdmin, formerOrk);
      var calls := [DecryptCall(AdminKey, admin), SignCall(keyToSign, signers)];
      match s.sign(keyToSign, signers)
      case Failure(e) => Step(calls, Failure(e))
      case Success(signed) => Step(calls, Success(dto.(publicKey := Some(WithArmoredKey(dto.publicKey, signed)))))
  }

  /** Revoke the former ORK and put the revoked key in the DTO's revoked key association. */
  function RevokeFormerKey(dto: PolicyDto, formerOrk: Option<DecryptedKey>, s: Services): (st: Step<PolicyDto>)
  {
    match s.revoke(formerOrk)
    case Failure(e) => Step([RevokeCall(formerOrk)], Failure(e))
    case Success(revoked) =>
      Step([RevokeCall(formerOrk)], Success(dto.(revokedKey := Some(WithArmoredKey(dto.revokedKey, revoked)))))
  }

  /** The signing stage: `SignNewKey` when a signature is required, a no-op otherwise. */
  function SignStage(newPolicy: PolicyArg, oldPolicy: PolicyArg, dto: PolicyDto,
                     decryptedOldOrk: Option<DecryptedKey>, adminPassphrase: string, s: Services): (st: Step<PolicyDto>)
    ensures !HasToSignTheNewKey(newPolicy, oldPolicy) ==> st == Step([], Success(dto))
    // when signing: the admin decrypt first, then one sign call with the chain of
    // trust, and on success only the public key's `armored_key` is replaced
    ensures HasToSignTheNewKey(newPolicy, oldPolicy) ==>
              var admin := AdminKeyEntity(s, adminPassphrase);
              && (s.decrypt(admin).Failure? ==> st.calls == [DecryptCall(AdminKey, admin)] && st.result.Failure?)
              && (s.decrypt(admin).Success? ==>
                    var signers := SigningKeys(s.decrypt(admin).value, decryptedOldOrk);
                    var keyToSign := ArmoredKeyField(newPolicy);
                    && st.calls == [DecryptCall(AdminKey, admin), SignCall(keyToSign, signers)]
                    && (st.result.Success? <==> s.sign(keyToSign, signers).Success?)
                    && (st.result.Success? ==>
                          st.result.value == dto.(publicKey := Some(WithArmoredKey(dto.publicKey, s.sign(keyToSign, signers).value)))))
    ensures NoSaveCall(st.calls)
    ensures st.result.Success? ==> CallsSucceeded(st.calls, s)
    ensures st.result.Failure? ==> StoppedAt(st.calls, st.result.error, s)
    ensures st.result.Success? ==> st.result.value.revokedKey == dto.revokedKey
  {
    if HasToSignTheNewKey(newPolicy, oldPolicy) then
      SignNewKey(dto, ArmoredKeyField(newPolicy), decryptedOldOrk, adminPassphrase, s)
    else Step([], Success(dto))
  }

  /** The revoking stage: `RevokeFormerKey` when a revocation is required, a no-op otherwise. */
  function RevokeStage(newPolicy: PolicyArg, oldPolicy: PolicyArg, dto: PolicyDto,
                       decryptedOldOrk: Option<DecryptedKey>, s: Services): (st: Step<PolicyDto>)
    ensures !HasToRevokeTheFormerKey(newPolicy, oldPolicy) ==> st == Step([], Success(dto))
    // when revoking: exactly one revoke call, and on success only the revoked
    // key's `armored_key` is replaced
    ensures HasToRevokeTheFormerKey(newPolicy, oldPolicy) ==>
              && st.calls == [RevokeCall(decryptedOldOrk)]
              && (st.result.Success? <==> s.revoke(decryptedOldOrk).Success?)
              && (st.result.Success? ==>
                    st.result.value == dto.(revokedKey := Some(WithArmoredKey(dto.revokedKey, s.revoke(decryptedOldOrk).value))))
    ensures NoSaveCall(st.calls)
    ensures st.result.Success? ==> CallsSucceeded(st.calls, s)
    ensures st.result.Failure? ==> StoppedAt(st.calls, st.result.error, s)
    ensures st.result.Success? ==> st.result.value.publicKey == dto.publicKey
  {
    if HasToRevokeTheFormerKey(newPolicy, oldPolicy) then RevokeFormerKey(dto, decryptedOldOrk, s)
    else Step([], Success(dto))
  }

  /** The calls made before the save never decrypt the admin key unless a
      signature is required. */
  predicate AdminDecryptOnlyIf(calls: seq<Call>, signing: bool)
  {
    forall i | 0 <= i < |calls| && calls[i].DecryptCall? && calls[i].role == AdminKey :: signing
  }

  lemma ConcatenatedCalls(a: seq<Call>, b: seq<Call>, s: Services, signing: bool)
    ensures NoSaveCall(a) && NoSaveCall(b) ==> NoSaveCall(a + b)
    ensures CallsSucceeded(a, s) && CallsSucceeded(b, s) ==> CallsSucceeded(a + b, s)
    ensures AdminDecryptOnlyIf(a, signing) && AdminDecryptOnlyIf(b, signing) ==> AdminDecryptOnlyIf(a + b, signing)
  {
    if NoSaveCall(a) && NoSaveCall(b) {
      forall i | 0 <= i < |a + b| ensures !(a + b)[i].SaveCall? {
        if i >= |a| { assert (a + b)[i] == b[i - |a|]; }
      }
    }
    if CallsSucceeded(a, s) && CallsSucceeded(b, s) {
      forall i | 0 <= i < |a + b|
        ensures match (a + b)[i]
                case DecryptCall(_, k) => s.decrypt(k).Success?
                case SignCall(k, signers) => s.sign(k, signers).Success?
                case RevokeCall(k) => s.revoke(k).Success?
                case SaveCall(_) => false
      {
        if i >= |a| { assert (a + b)[i] == b[i - |a|]; }
      }
    }
    if AdminDecryptOnlyIf(a, signing) && AdminDecryptOnlyIf(b, signing) {
      forall i | 0 <= i < |a + b| && (a + b)[i].DecryptCall? && (a + b)[i].role == AdminKey ensures signing {
        if i >= |a| { assert (a + b)[i] == b[i - |a|]; }
      }
    }
  }

  /** Successful calls followed by calls that stopped at a failure stopped at that failure. */
  lemma StoppedAfter(a: seq<Call>, b: seq<Call>, e: Error, s: Services)
    requires CallsSucceeded(a, s) && StoppedAt(b, e, s)
    ensures StoppedAt(a + b, e, s)
  {
    var calls := a + b;
    assert calls[..|calls| - 1] == a + b[..|b| - 1];
    assert calls[|calls| - 1] == b[|b| - 1];
    ConcatenatedCalls(a, b[..|b| - 1], s, false);
  }

  /** Appending the save to calls that hold none makes it the one, final save. */
  lemma SaveAppended(prefix: seq<Call>, request: SaveRequest, signing: bool)
    requires NoSaveCall(prefix) && AdminDecryptOnlyIf(prefix, signing)
    ensures var calls := prefix + [SaveCall(request)];
            && SaveIssued(calls)
            && calls[..|calls| - 1] == prefix
            && calls[|calls| - 1] == SaveCall(request)
            && (forall i | 0 <= i < |calls| && calls[i].SaveCall? :: i == |calls| - 1 && calls[i].request == request)
            && AdminDecryptOnlyIf(calls, signing)
  {
    var calls := prefix + [SaveCall(request)];
    assert calls[|calls| - 1] == SaveCall(request);
    assert calls[..|calls| - 1] == prefix;
    forall i | 0 <= i < |prefix| ensures !calls[i].SaveCall? {
      assert calls[i] == prefix[i];
    }
  }

  /** The signing stage then the revoking stage, given the decrypted former ORK. */
  function RunStages(newPolicy: PolicyArg, oldPolicy: PolicyArg, dto: PolicyDto,
                     decryptedOldOrk: Option<DecryptedKey>, adminPassphrase: string, s: Services): (st: Step<PolicyDto>)
    ensures NoSaveCall(st.calls)
    ensures AdminDecryptOnlyIf(st.calls, HasToSignTheNewKey(newPolicy, oldPolicy))
    ensures st.result.Success? <==> StagesSucceed(newPolicy, oldPolicy, decryptedOldOrk, adminPassphrase, s)
    ensures st.result.Success? ==> CallsSucceeded(st.calls, s)
    ensures st.result.Failure? ==> StoppedAt(st.calls, st.result.error, s)
    // the calls follow the source order, all of them on success
    ensures st.calls <= StageCalls(newPolicy, oldPolicy, decryptedOldOrk, adminPassphrase, s)
    ensures st.result.Success? ==> st.calls == StageCalls(newPolicy, oldPolicy, decryptedOldOrk, adminPassphrase, s)
    ensures st.result.Success? ==>
              && StagesSucceed(newPolicy, oldPolicy, decryptedOldOrk, adminPassphrase, s)
              && st.result.value.policy == dto.policy
              && st.result.value.otherFields == dto.otherFields
              && var admin := AdminKeyEntity(s, adminPassphrase);
                 && (!HasToSignTheNewKey(newPolicy, oldPolicy) ==> st.result.value.publicKey == dto.publicKey)
                 && (HasToSignTheNewKey(newPolicy, oldPolicy) ==>
                       var signed := s.sign(ArmoredKeyField(newPolicy), SigningKeys(s.decrypt(admin).value, decryptedOldOrk));
                       st.result.value.publicKey == Some(WithArmoredKey(dto.publicKey, signed.value)))
                 && (!HasToRevokeTheFormerKey(newPolicy, oldPolicy) ==> st.result.value.revokedKey == dto.revokedKey)
                 && (HasToRevokeTheFormerKey(newPolicy, oldPolicy) ==>
                       st.result.value.revokedKey == Some(WithArmoredKey(dto.revokedKey, s.revoke(decryptedOldOrk).value)))
                 && (HasToSignTheNewKey(newPolicy, oldPolicy) ==>
                       SignCall(ArmoredKeyField(newPolicy), SigningKeys(s.decrypt(admin).value, decryptedOldOrk)) in st.calls)
                 && (HasToRevokeTheFormerKey(newPolicy, oldPolicy) ==> RevokeCall(decryptedOldOrk) in st.calls)
  {
    var signing := HasToSignTheNewKey(newPolicy, oldPolicy);
    var signed := SignStage(newPolicy, oldPolicy, dto, decryptedOldOrk, adminPassphrase, s);
    if signed.result.Failure? then signed
    else
      var revoked := RevokeStage(newPolicy, oldPolicy, signed.result.value, decryptedOldOrk, s);
      ConcatenatedCalls(signed.calls, revoked.calls, s, signing);
      if revoked.result.Failure? then
        StoppedAfter(signed.calls, revoked.calls, revoked.result.error, s);
        Step(signed.calls + revoked.calls, revoked.result)
      else
        Step(signed.calls + revoked.calls, revoked.result)
  }

  /** The source order splits at the former ORK decrypt: that step's calls, then
      the stages' calls when it succeeded. */
  lemma SourceOrderSplits(newPolicy: PolicyArg, oldPolicy: PolicyArg, formerOrk: Option<PrivateKeyEntity>,
                          adminPassphrase: string, s: Services)
    ensures var decrypted := DecryptFormerOrk(formerOrk, s);
            SourceOrderCalls(newPolicy, oldPolicy, formerOrk, adminPassphrase, s)
            == decrypted.calls + if decrypted.result.Failure? then []
                                 else StageCalls(newPolicy, oldPolicy, decrypted.result.value, adminPassphrase, s)
  {
  }

  lemma PrefixExtends(a: seq<Call>, b: seq<Call>, c: seq<Call>)
    requires b <= c
    ensures a + b <= a + c
  {
    assert a + c == (a + b) + c[|b|..];
  }

  /** What the calls of the steps before the save promise: no save among them, the
      admin key decrypted only when signing, all or nothing (the steps succeed
      exactly when every needed collaborator does), and a failure at the last call
      made, after calls that all succeeded. */
  predicate PreparationCalls(newPolicy: PolicyArg, oldPolicy: PolicyArg, formerOrk: Option<PrivateKeyEntity>,
                             adminPassphrase: string, s: Services, st: Step<PolicyDto>)
  {
    && NoSaveCall(st.calls)
    && AdminDecryptOnlyIf(st.calls, HasToSignTheNewKey(newPolicy, oldPolicy))
    && (st.result.Success? <==> CollaboratorsSucceed(newPolicy, oldPolicy, formerOrk, adminPassphrase, s))
    && (st.result.Success? ==> CallsSucceeded(st.calls, s))
    && (st.result.Failure? ==> StoppedAt(st.calls, st.result.error, s))
  }

  /** The calls are taken in source order, all of them on success; with the
      previous promise, a failure is the first failing call in that order. */
  predicate FollowsSourceOrder(newPolicy: PolicyArg, oldPolicy: PolicyArg, formerOrk: Option<PrivateKeyEntity>,
                               adminPassphrase: string, s: Services, st: Step<PolicyDto>)
  {
    && st.calls <= SourceOrderCalls(newPolicy, oldPolicy, formerOrk, adminPassphrase, s)
    && (st.result.Success? ==> st.calls == SourceOrderCalls(newPolicy, oldPolicy, formerOrk, adminPassphrase, s))
  }

  /** What a successful preparation produces: the DTO with the signed key and the
      revoked key written where required and everything else as given, after the
      sign and revoke calls that produced them. */
  predicate PreparationResult(newPolicy: PolicyArg, oldPolicy: PolicyArg, dto: PolicyDto,
                              formerOrk: Option<PrivateKeyEntity>, adminPassphrase: string, s: Services,
                              st: Step<PolicyDto>)
  {
    st.result.Success? ==>
      && CollaboratorsSucceed(newPolicy, oldPolicy, formerOrk, adminPassphrase, s)
      && st.result.value.policy == dto.policy
      && st.result.value.otherFields == dto.otherFields
      && var decryptedOldOrk := DecryptedFormerOrk(formerOrk, s);
         var admin := AdminKeyEntity(s, adminPassphrase);
         && (!HasToSignTheNewKey(newPolicy, oldPolicy) ==> st.result.value.publicKey == dto.publicKey)
         && (HasToSignTheNewKey(newPolicy, oldPolicy) ==>
               var signed := s.sign(ArmoredKeyField(newPolicy), SigningKeys(s.decrypt(admin).value, decryptedOldOrk));
               st.result.value.publicKey == Some(WithArmoredKey(dto.publicKey, signed.value)))
         && (!HasToRevokeTheFormerKey(newPolicy, oldPolicy) ==> st.result.value.revokedKey == dto.revokedKey)
         && (HasToRevokeTheFormerKey(newPolicy, oldPolicy) ==>
               st.result.value.revokedKey == Some(WithArmoredKey(dto.revokedKey, s.revoke(decryptedOldOrk).value)))
         && (HasToSignTheNewKey(newPolicy, oldPolicy) ==>
               SignCall(ArmoredKeyField(newPolicy), SigningKeys(s.decrypt(admin).value, decryptedOldOrk)) in st.calls)
         && (HasToRevokeTheFormerKey(newPolicy, oldPolicy) ==> RevokeCall(decryptedOldOrk) in st.calls)
  }

  /** The former ORK decrypt followed by both stages keeps the call promises. */
  lemma CallsAfterStages(newPolicy: PolicyArg, oldPolicy: PolicyArg, dto: PolicyDto,
                         formerOrk: Option<PrivateKeyEntity>, adminPassphrase: string, s: Services)
    requires DecryptFormerOrk(formerOrk, s).result.Success?
    ensures var decrypted := DecryptFormerOrk(formerOrk, s);
            var stages := RunStages(newPolicy, oldPolicy, dto, decrypted.result.value, adminPassphrase, s);
            PreparationCalls(newPolicy, oldPolicy, formerOrk, adminPassphrase, s,
                             Step(decrypted.calls + stages.calls, stages.result))
  {
    var decrypted := DecryptFormerOrk(formerOrk, s);
    var stages := RunStages(newPolicy, oldPolicy, dto, decrypted.result.value, adminPassphrase, s);
    ConcatenatedCalls(decrypted.calls, stages.calls, s, HasToSignTheNewKey(newPolicy, oldPolicy));
    if stages.result.Failure? {
      StoppedAfter(decrypted.calls, stages.calls, stages.result.error, s);
    }
  }

  /** The former ORK decrypt followed by both stages takes the calls in source order. */
  lemma OrderAfterStages(newPolicy: PolicyArg, oldPolicy: PolicyArg, dto: PolicyDto,
                         formerOrk: Option<PrivateKeyEntity>, adminPassphrase: string, s: Services)
    requires DecryptFormerOrk(formerOrk, s).result.Success?
    ensures var decrypted := DecryptFormerOrk(formerOrk, s);
            var stages := RunStages(newPolicy, oldPolicy, dto, decrypted.result.value, adminPassphrase, s);
            FollowsSourceOrder(newPolicy, oldPolicy, formerOrk, adminPassphrase, s,
                               Step(decrypted.calls + stages.calls, stages.result))
  {
    var decrypted := DecryptFormerOrk(formerOrk, s);
    var stages := RunStages(newPolicy, oldPolicy, dto, decrypted.result.value, adminPassphrase, s);
    SourceOrderSplits(newPolicy, oldPolicy, formerOrk, adminPassphrase, s);
    PrefixExtends(decrypted.calls, stages.calls,
                  StageCalls(newPolicy, oldPolicy, decrypted.result.value, adminPassphrase, s));
  }

  /** The former ORK decrypt followed by both stages produces the promised DTO. */
  lemma ResultAfterStages(newPolicy: PolicyArg, oldPolicy: PolicyArg, dto: PolicyDto,
                          formerOrk: Option<PrivateKeyEntity>, adminPassphrase: string, s: Services)
    requires DecryptFormerOrk(formerOrk, s).result.Success?
    ensures var decrypted := DecryptFormerOrk(formerOrk, s);
            var stages := RunStages(newPolicy, oldPolicy, dto, decrypted.result.value, adminPassphrase, s);
            PreparationResult(newPolicy, oldPolicy, dto, formerOrk, adminPassphrase, s,
                              Step(decrypted.calls + stages.calls, stages.result))
  {
    var decrypted := DecryptFormerOrk(formerOrk, s);
    assert decrypted.result.value == DecryptedFormerOrk(formerOrk, s);
  }

  /** Everything before the save: decrypt the former ORK if supplied, then the
      signing stage, then the revoking stage. */
  function PrepareDto(newPolicy: PolicyArg, oldPolicy: PolicyArg, dto: PolicyDto,
                      formerOrk: Option<PrivateKeyEntity>, adminPassphrase: string, s: Services): (st: Step<PolicyDto>)
    ensures PreparationCalls(newPolicy, oldPolicy, formerOrk, adminPassphrase, s, st)
    ensures FollowsSourceOrder(newPolicy, oldPolicy, formerOrk, adminPassphrase, s, st)
    ensures PreparationResult(newPolicy, oldPolicy, dto, formerOrk, adminPassphrase, s, st)
  {
    var decrypted := DecryptFormerOrk(formerOrk, s);
    if decrypted.result.Failure? then
      SourceOrderSplits(newPolicy, oldPolicy, formerOrk, adminPassphrase, s);
      Step(decrypted.calls, Failure(decrypted.result.error))
    else
      CallsAfterStages(newPolicy, oldPolicy, dto, formerOrk, adminPassphrase, s);
      OrderAfterStages(newPolicy, oldPolicy, dto, formerOrk, adminPassphrase, s);
      ResultAfterStages(newPolicy, oldPolicy, dto, formerOrk, adminPassphrase, s);
      var stages := RunStages(newPolicy, oldPolicy, dto, decrypted.result.value, adminPassphrase, s);
      Step(decrypted.calls + stages.calls, stages.result)
  }

  /** `saveOrganizationSettings`: decrypt the former ORK if supplied, sign the new
      key if required, revoke the former key if required, and save last. */
  function SaveOrganizationSettings(newPolicy: PolicyArg, oldPolicy: PolicyArg,
                                    formerOrk: Option<PrivateKeyEntity>, adminPassphrase: string,
                                    s: Services): (r: Run)
    // the save call, if made, is the final call, hence made at most once
    ensures forall i | 0 <= i < |r.calls| && r.calls[i].SaveCall? :: i == |r.calls| - 1
    // all or nothing: the API is reached only after every crypto call succeeded,
    // and it is reached whenever every collaborator the run needs succeeds
    ensures SaveIssued(r.calls) ==> CallsSucceeded(r.calls[..|r.calls| - 1], s)
    ensures newPolicy.Entity? ==>
              (SaveIssued(r.calls) <==> CollaboratorsSucceed(newPolicy, oldPolicy, formerOrk, adminPassphrase, s))
    // a resolved promise means the API accepted the request, and yields the
    // entity built from what the API returned
    ensures r.result.Success? ==>
              && SaveIssued(r.calls)
              && s.save(r.calls[|r.calls| - 1].request).Success?
              && r.result.value == Entity(s.save(r.calls[|r.calls| - 1].request).value)
    // a rejection carries the error of the call it stopped at, the save included
    ensures newPolicy.Entity? && r.result.Failure? ==> StoppedAt(r.calls, r.result.error, s)
    // the calls before the save follow the source order, all of them when the API is reached
    ensures newPolicy.Entity? && !SaveIssued(r.calls) ==>
              r.calls <= SourceOrderCalls(newPolicy, oldPolicy, formerOrk, adminPassphrase, s)
    ensures SaveIssued(r.calls) ==>
              r.calls[..|r.calls| - 1] == SourceOrderCalls(newPolicy, oldPolicy, formerOrk, adminPassphrase, s)
    // the admin key is decrypted only when the new key has to be signed
    ensures AdminDecryptOnlyIf(r.calls, HasToSignTheNewKey(newPolicy, oldPolicy))
    // the revoked-key association is sent exactly when a revocation was required
    ensures forall i | 0 <= i < |r.calls| && r.calls[i].SaveCall? ::
              r.calls[i].request.contains == Contains(true, false, HasToRevokeTheFormerKey(newPolicy, oldPolicy))
    // the bare string as new policy has no `toDto` and fails before any call
    ensures newPolicy.DisabledSentinel? ==> r == Run([], Failure(TypeError(TO_DTO_TYPE_ERROR)))
  {
    match newPolicy
    case DisabledSentinel => Run([], Failure(TypeError(TO_DTO_TYPE_ERROR)))
    case Entity(dto) => SavePrepared(newPolicy, oldPolicy, PrepareDto(newPolicy, oldPolicy, dto, formerOrk, adminPassphrase, s), s)
  }

  /** The save at the end of a run for an entity: when the steps before it
      produced a DTO, send it with the association flags, and resolve with the
      entity built from what the API returned. */
  function SavePrepared(newPolicy: PolicyArg, oldPolicy: PolicyArg, prepared: Step<PolicyDto>, s: Services): (r: Run)
    requires newPolicy.Entity? && NoSaveCall(prepared.calls)
    requires AdminDecryptOnlyIf(prepared.calls, HasToSignTheNewKey(newPolicy, oldPolicy))
    ensures AdminDecryptOnlyIf(r.calls, HasToSignTheNewKey(newPolicy, oldPolicy))
    ensures prepared.result.Failure? ==> r == Run(prepared.calls, Failure(prepared.result.error))
    ensures prepared.result.Success? ==>
              var request := SaveRequest(prepared.result.value, Contains(true, false, HasToRevokeTheFormerKey(newPolicy, oldPolicy)));
              && r.calls == prepared.calls + [SaveCall(request)]
              && SaveIssued(r.calls)
              && r.calls[..|r.calls| - 1] == prepared.calls
              && (forall i | 0 <= i < |r.calls| && r.calls[i].SaveCall? :: i == |r.calls| - 1 && r.calls[i].request == request)
              && (r.result.Success? <==> s.save(request).Success?)
              && (r.result.Success? ==> r.result.value == Entity(s.save(request).value))
              && (r.result.Failure? ==> r.result.error == s.save(request).error)
  {
    if prepared.result.Failure? then Run(prepared.calls, Failure(prepared.result.error))
    else
      var request := SaveRequest(prepared.result.value, Contains(true, false, HasToRevokeTheFormerKey(newPolicy, oldPolicy)));
      var calls := prepared.calls + [SaveCall(request)];
      SaveAppended(prepared.calls, request, HasToSignTheNewKey(newPolicy, oldPolicy));
      match s.save(request)
      case Failure(e) => Run(calls, Failure(e))
      case Success(saved) => Run(calls, Success(Entity(saved)))
  }

  /** The request that reached the API, when one did. */
  function SavedRequest(r: Run): SaveRequest
    requires |r.calls| > 0 && r.calls[|r.calls| - 1].SaveCall?
  {
    r.calls[|r.calls| - 1].request
  }

  /** A run that reached the API sent, as its one last call, the DTO that the
      steps before the save produced, with the association flags. */
  lemma SavedRun(newPolicy: PolicyArg, oldPolicy: PolicyArg,
                 formerOrk: Option<PrivateKeyEntity>, adminPassphrase: string, s: Services)
    ensures
      var r := SaveOrganizationSettings(newPolicy, oldPolicy, formerOrk, adminPassphrase, s);
      SaveIssued(r.calls) ==>
        && newPolicy.Entity?
        && var prepared := PrepareDto(newPolicy, oldPolicy, newPolicy.dto, formerOrk, adminPassphrase, s);
           && prepared.result.Success?
           && |r.calls| > 0 && r.calls[|r.calls| - 1].SaveCall?
           && r.calls[..|r.calls| - 1] == prepared.calls
           && SavedRequest(r) == SaveRequest(prepared.result.value, Contains(true, false, HasToRevokeTheFormerKey(newPolicy, oldPolicy)))
  {
  }

  /** The two stages, one after the other: a failed signing stage is the end of
      them, and otherwise the revoking stage runs on the signed DTO. */
  lemma StagesInOrder(newPolicy: PolicyArg, oldPolicy: PolicyArg, dto: PolicyDto,
                      decryptedOldOrk: Option<DecryptedKey>, adminPassphrase: string, s: Services)
    ensures var signed := SignStage(newPolicy, oldPolicy, dto, decryptedOldOrk, adminPassphrase, s);
            var stages := RunStages(newPolicy, oldPolicy, dto, decryptedOldOrk, adminPassphrase, s);
            && (signed.result.Failure? ==> stages == signed)
            && (signed.result.Success? ==>
                  var revoked := RevokeStage(newPolicy, oldPolicy, signed.result.value, decryptedOldOrk, s);
                  stages == Step(signed.calls + revoked.calls, revoked.result))
  {
  }

  /** After a successful former ORK decrypt, the preparation is that decrypt's
      calls followed by the two stages. */
  lemma PreparedAfterDecrypt(newPolicy: PolicyArg, oldPolicy: PolicyArg, dto: PolicyDto,
                             formerOrk: Option<PrivateKeyEntity>, adminPassphrase: string, s: Services)
    requires DecryptFormerOrk(formerOrk, s).result.Success?
    ensures var decrypted := DecryptFormerOrk(formerOrk, s);
            var stages := RunStages(newPolicy, oldPolicy, dto, decrypted.result.value, adminPassphrase, s);
            PrepareDto(newPolicy, oldPolicy, dto, formerOrk, adminPassphrase, s)
            == Step(decrypted.calls + stages.calls, stages.result)
  {
  }

  /** The steps before the save, stage by stage: the former ORK decrypt, then
      the signing stage on the DTO, then the revoking stage on its result. */
  lemma PreparedByStages(newPolicy: PolicyArg, oldPolicy: PolicyArg, dto: PolicyDto,
                         formerOrk: Option<PrivateKeyEntity>, adminPassphrase: string, s: Services)
    requires DecryptFormerOrk(formerOrk, s).result.Success?
    ensures var decrypted := DecryptFormerOrk(formerOrk, s);
            var signed := SignStage(newPolicy, oldPolicy, dto, decrypted.result.value, adminPassphrase, s);
            var prepared := PrepareDto(newPolicy, oldPolicy, dto, formerOrk, adminPassphrase, s);
            && (signed.result.Failure? ==> prepared == Step(decrypted.calls + signed.calls, signed.result))
            && (signed.result.Success? ==>
                  var revoked := RevokeStage(newPolicy, oldPolicy, signed.result.value, decrypted.result.value, s);
                  prepared == Step(decrypted.calls + signed.calls + revoked.calls, revoked.result))
  {
    var decrypted := DecryptFormerOrk(formerOrk, s);
    StagesInOrder(newPolicy, oldPolicy, dto, decrypted.result.value, adminPassphrase, s);
    PreparedAfterDecrypt(newPolicy, oldPolicy, dto, formerOrk, adminPassphrase, s);
    var signed := SignStage(newPolicy, oldPolicy, dto, decrypted.result.value, adminPassphrase, s);
    if signed.result.Success? {
      var revoked := RevokeStage(newPolicy, oldPolicy, signed.result.value, decrypted.result.value, s);
      CallsAssociate(decrypted.calls, signed.calls, revoked.calls);
    }
  }

  lemma CallsAssociate(a: seq<Call>, b: seq<Call>, c: seq<Call>)
    ensures a + (b + c) == a + b + c
  {
  }

  /** A run that reached the API went through every stage successfully, and sent
      the DTO those stages produced. */
  lemma SavedRunStages(newPolicy: PolicyArg, oldPolicy: PolicyArg,
                       formerOrk: Option<PrivateKeyEntity>, adminPassphrase: string, s: Services)
    ensures
      var r := SaveOrganizationSettings(newPolicy, oldPolicy, formerOrk, adminPassphrase, s);
      SaveIssued(r.calls) ==>
        && newPolicy.Entity?
        && DecryptFormerOrk(formerOrk, s).result.Success?
        && var decryptedOldOrk := DecryptFormerOrk(formerOrk, s).result.value;
           var signed := SignStage(newPolicy, oldPolicy, newPolicy.dto, decryptedOldOrk, adminPassphrase, s);
           && signed.result.Success?
           && var revoked := RevokeStage(newPolicy, oldPolicy, signed.result.value, decryptedOldOrk, s);
              && revoked.result.Success?
              && |r.calls| > 0 && r.calls[|r.calls| - 1].SaveCall?
              && SavedRequest(r).dto == revoked.result.value
              && r.calls == DecryptFormerOrk(formerOrk, s).calls + signed.calls + revoked.calls + [r.calls[|r.calls| - 1]]
  {
    var r := SaveOrganizationSettings(newPolicy, oldPolicy, formerOrk, adminPassphrase, s);
    SavedRun(newPolicy, oldPolicy, formerOrk, adminPassphrase, s);
    if SaveIssued(r.calls) {
      PreparedByStages(newPolicy, oldPolicy, newPolicy.dto, formerOrk, adminPassphrase, s);
      assert r.calls == r.calls[..|r.calls| - 1] + [r.calls[|r.calls| - 1]];
    }
  }

  /** A failing decrypt of the supplied former ORK rejects with that error, and
      nothing else is called. */
  lemma FormerOrkDecryptFailureAborts(newPolicy: PolicyArg, oldPolicy: PolicyArg,
                                      formerOrk: Option<PrivateKeyEntity>, adminPassphrase: string, s: Services)
    requires newPolicy.Entity? && formerOrk.Some? && s.decrypt(formerOrk.value).Failure?
    ensures var r := SaveOrganizationSettings(newPolicy, oldPolicy, formerOrk, adminPassphrase, s);
            r.calls == [DecryptCall(FormerOrganizationKey, formerOrk.value)]
            && r.result == Failure(s.decrypt(formerOrk.value).error)
  {
  }

  /** A failed signing stage ends the run: no revocation and no save follow, and
      the run rejects with the signing stage's error. */
  lemma SignFailureEndsRun(newPolicy: PolicyArg, oldPolicy: PolicyArg,
                           formerOrk: Option<PrivateKeyEntity>, adminPassphrase: string, s: Services)
    requires newPolicy.Entity? && DecryptFormerOrk(formerOrk, s).result.Success?
    ensures var decrypted := DecryptFormerOrk(formerOrk, s);
            var signed := SignStage(newPolicy, oldPolicy, newPolicy.dto, decrypted.result.value, adminPassphrase, s);
            signed.result.Failure? ==>
              SaveOrganizationSettings(newPolicy, oldPolicy, formerOrk, adminPassphrase, s)
              == Run(decrypted.calls + signed.calls, Failure(signed.result.error))
  {
    PreparedByStages(newPolicy, oldPolicy, newPolicy.dto, formerOrk, adminPassphrase, s);
  }

  /** A failed revoking stage after a successful signing stage ends the run
      without a save, with the revocation's error. */
  lemma RevokeFailureEndsRun(newPolicy: PolicyArg, oldPolicy: PolicyArg,
                             formerOrk: Option<PrivateKeyEntity>, adminPassphrase: string, s: Services)
    requires newPolicy.Entity? && DecryptFormerOrk(formerOrk, s).result.Success?
    ensures var decrypted := DecryptFormerOrk(formerOrk, s);
            var signed := SignStage(newPolicy, oldPolicy, newPolicy.dto, decrypted.result.value, adminPassphrase, s);
            signed.result.Success? ==>
              var revoked := RevokeStage(newPolicy, oldPolicy, signed.result.value, decrypted.result.value, s);
              revoked.result.Failure? ==>
                SaveOrganizationSettings(newPolicy, oldPolicy, formerOrk, adminPassphrase, s)
                == Run(decrypted.calls + signed.calls + revoked.calls, Failure(revoked.result.error))
  {
    PreparedByStages(newPolicy, oldPolicy, newPolicy.dto, formerOrk, adminPassphrase, s);
  }

  /** Calls that follow `order` and stopped at a failure stopped at the first
      failing call of `order`. */
  lemma FirstFailureOfPrefix(calls: seq<Call>, order: seq<Call>, e: Error, s: Services)
    requires calls <= order && StoppedAt(calls, e, s)
    ensures exists k | 0 <= k < |order| ::
              && calls == order[..k + 1]
              && CallsSucceeded(order[..k], s)
              && CallFailedWith(order[k], e, s)
  {
    var k := |calls| - 1;
    assert calls == order[..k + 1];
    assert order[..k] == calls[..k];
  }

  /** A run that rejects before the save rejects with the error of the first call,
      in source order, that fails: the calls before it succeeded and nothing after
      it was called. */
  lemma RejectsAtFirstFailingCall(newPolicy: PolicyArg, oldPolicy: PolicyArg,
                                  formerOrk: Option<PrivateKeyEntity>, adminPassphrase: string, s: Services)
    requires newPolicy.Entity?
    ensures var r := SaveOrganizationSettings(newPolicy, oldPolicy, formerOrk, adminPassphrase, s);
            var order := SourceOrderCalls(newPolicy, oldPolicy, formerOrk, adminPassphrase, s);
            r.result.Failure? && !SaveIssued(r.calls) ==>
              exists k | 0 <= k < |order| ::
                && r.calls == order[..k + 1]
                && CallsSucceeded(order[..k], s)
                && CallFailedWith(order[k], r.result.error, s)
  {
    var r := SaveOrganizationSettings(newPolicy, oldPolicy, formerOrk, adminPassphrase, s);
    var order := SourceOrderCalls(newPolicy, oldPolicy, formerOrk, adminPassphrase, s);
    if r.result.Failure? && !SaveIssued(r.calls) {
      FirstFailureOfPrefix(r.calls, order, r.result.error, s);
    }
  }

  /** When a signature is required, the new ORK is signed by the admin key followed
      by the former ORK (if supplied), and the signed key replaces only the
      `armored_key` field of the public key association. */
  lemma SigningChainOfTrust(newPolicy: PolicyArg, oldPolicy: PolicyArg,
                            formerOrk: Option<PrivateKeyEntity>, adminPassphrase: string, s: Services)
    requires HasToSignTheNewKey(newPolicy, oldPolicy)
    requires SaveIssued(SaveOrganizationSettings(newPolicy, oldPolicy, formerOrk, adminPassphrase, s).calls)
    ensures formerOrk.Some? ==> s.decrypt(formerOrk.value).Success?
    ensures s.decrypt(AdminKeyEntity(s, adminPassphrase)).Success?
    ensures
      var r := SaveOrganizationSettings(newPolicy, oldPolicy, formerOrk, adminPassphrase, s);
      var admin := s.decrypt(AdminKeyEntity(s, adminPassphrase)).value.armoredKey;
      var signers := if formerOrk.Some? then [admin, s.decrypt(formerOrk.value).value.armoredKey] else [admin];
      var sent := SavedRequest(r).dto.publicKey;
      && SignCall(ArmoredKeyField(newPolicy), signers) in r.calls
      && s.sign(ArmoredKeyField(newPolicy), signers).Success?
      && sent.Some?
      && sent.value.armoredKey == Some(s.sign(ArmoredKeyField(newPolicy), signers).value)
      && (newPolicy.dto.publicKey.Some? ==> sent.value.otherFields == newPolicy.dto.publicKey.value.otherFields)
  {
    SavedRun(newPolicy, oldPolicy, formerOrk, adminPassphrase, s);
    var r := SaveOrganizationSettings(newPolicy, oldPolicy, formerOrk, adminPassphrase, s);
    var prepared := PrepareDto(newPolicy, oldPolicy, newPolicy.dto, formerOrk, adminPassphrase, s);
    var adminEntity := AdminKeyEntity(s, adminPassphrase);
    assert prepared.result.Success? && CollaboratorsSucceed(newPolicy, oldPolicy, formerOrk, adminPassphrase, s);
    var signers := SigningKeys(s.decrypt(adminEntity).value, DecryptedFormerOrk(formerOrk, s));
    var admin := s.decrypt(adminEntity).value.armoredKey;
    assert signers == if formerOrk.Some? then [admin, s.decrypt(formerOrk.value).value.armoredKey] else [admin];
    var signCall := SignCall(ArmoredKeyField(newPolicy), signers);
    assert signCall in prepared.calls;
    assert r.calls == prepared.calls + [r.calls[|r.calls| - 1]];
    assert signCall in r.calls;
    assert SavedRequest(r).dto.publicKey == Some(WithArmoredKey(newPolicy.dto.publicKey, s.sign(ArmoredKeyField(newPolicy), signers).value));
  }

  /** When a revocation is required, the revoked former ORK is sent as the
      `armored_key` of the revoked key association. */
  lemma RevocationAttached(newPolicy: PolicyArg, oldPolicy: PolicyArg,
                           formerOrk: Option<PrivateKeyEntity>, adminPassphrase: string, s: Services)
    requires HasToRevokeTheFormerKey(newPolicy, oldPolicy)
    requires SaveIssued(SaveOrganizationSettings(newPolicy, oldPolicy, formerOrk, adminPassphrase, s).calls)
    ensures formerOrk.Some? ==> s.decrypt(formerOrk.value).Success?
    ensures
      var r := SaveOrganizationSettings(newPolicy, oldPolicy, formerOrk, adminPassphrase, s);
      var decryptedOldOrk := if formerOrk.Some? then Some(s.decrypt(formerOrk.value).value) else None;
      var sent := SavedRequest(r).dto.revokedKey;
      && RevokeCall(decryptedOldOrk) in r.calls
      && s.revoke(decryptedOldOrk).Success?
      && sent.Some?
      && sent.value.armoredKey == Some(s.revoke(decryptedOldOrk).value)
  {
    SavedRun(newPolicy, oldPolicy, formerOrk, adminPassphrase, s);
    var r := SaveOrganizationSettings(newPolicy, oldPolicy, formerOrk, adminPassphrase, s);
    var prepared := PrepareDto(newPolicy, oldPolicy, newPolicy.dto, formerOrk, adminPassphrase, s);
    assert prepared.result.Success? && CollaboratorsSucceed(newPolicy, oldPolicy, formerOrk, adminPassphrase, s);
    assert RevokeCall(DecryptedFormerOrk(formerOrk, s)) in prepared.calls;
    assert r.calls == prepared.calls + [r.calls[|r.calls| - 1]];
  }

  /** With neither action required, the DTO reaches the API exactly as `toDto()`
      produced it, and the only calls are the optional former-ORK decrypt and the save. */
  lemma NoActionPassesThrough(newPolicy: PolicyArg, oldPolicy: PolicyArg,
                              formerOrk: Option<PrivateKeyEntity>, adminPassphrase: string, s: Services)
    requires newPolicy.Entity?
    requires !HasToSignTheNewKey(newPolicy, oldPolicy) && !HasToRevokeTheFormerKey(newPolicy, oldPolicy)
    requires formerOrk.Some? ==> s.decrypt(formerOrk.value).Success?
    ensures
      var r := SaveOrganizationSettings(newPolicy, oldPolicy, formerOrk, adminPassphrase, s);
      var request := SaveRequest(newPolicy.dto, Contains(true, false, false));
      var decrypts := if formerOrk.Some? then [DecryptCall(FormerOrganizationKey, formerOrk.value)] else [];
      r.calls == decrypts + [SaveCall(request)]
  {
  }

  /** Whatever else happens, the policy field and the DTO's other fields are
      passed through to the API unchanged. */
  lemma OtherFieldsUnchanged(newPolicy: PolicyArg, oldPolicy: PolicyArg,
                             formerOrk: Option<PrivateKeyEntity>, adminPassphrase: string, s: Services)
    requires SaveIssued(SaveOrganizationSettings(newPolicy, oldPolicy, formerOrk, adminPassphrase, s).calls)
    ensures newPolicy.Entity?
    ensures
      var sent := SavedRequest(SaveOrganizationSettings(newPolicy, oldPolicy, formerOrk, adminPassphrase, s)).dto;
      && sent.policy == newPolicy.dto.policy
      && sent.otherFields == newPolicy.dto.otherFields
      && (!HasToSignTheNewKey(newPolicy, oldPolicy) ==> sent.publicKey == newPolicy.dto.publicKey)
      && (!HasToRevokeTheFormerKey(newPolicy, oldPolicy) ==> sent.revokedKey == newPolicy.dto.revokedKey)
  {
    SavedRun(newPolicy, oldPolicy, formerOrk, adminPassphrase, s);
  }
}

=== FILE: file_chunks.dfy ===
/** `b64ToBlob`: a base64 file content is decoded to a binary string (by `atob`,
    base64 as in section 4 of RFC 4648, passed in as a function), cut into
    consecutive slices of `sliceSize` characters, and each slice turned into the
    byte values of its characters. The blob is represented by the arguments its
    constructor receives: the byte arrays and the content type. */
module FileChunks {
  import opened Wrappers

  type Byte = b: int | 0 <= b < 256

  /** A character of a binary string as `atob` returns it: its code is below 256. */
  type BinaryChar = c: char | (c as int) < 256 witness 'a'

  const DEFAULT_SLICE_SIZE: int := 512

  const INVALID_BASE64_ERROR: string := "InvalidCharacterError"

  datatype Blob = Blob(parts: seq<seq<Byte>>, contentType: string)

  /** `charCodeAt`, stored into a `Uint8Array`; the code already fits a byte. */
  function CharCode(c: BinaryChar): Byte
  {
    c as int
  }

  function CharCodes(s: seq<BinaryChar>): (codes: seq<Byte>)
    ensures |codes| == |s|
    ensures forall i | 0 <= i < |s| :: codes[i] == CharCode(s[i])
  {
    seq(|s|, i requires 0 <= i < |s| => CharCode(s[i]))
  }

  /** `contentType || ''`, for a content type that is a string or absent. */
  function ContentTypeOrDefault(contentType: Option<string>): string
  {
    if contentType.Some? && contentType.value != "" then contentType.value else ""
  }

  /** `sliceSize || 512`, for a slice size that is an integer or absent. */
  function SliceSizeOrDefault(sliceSize: Option<int>): int
  {
    if sliceSize.Some? && sliceSize.value != 0 then sliceSize.value else DEFAULT_SLICE_SIZE
  }

  function Min(a: int, b: int): int
  {
    if a <= b then a else b
  }

  /** The reference slicing: consecutive pieces of `n` elements, the last one
      possibly shorter. */
  function Chunks<T>(s: seq<T>, n: nat): seq<seq<T>>
    requires n > 0
    decreases |s|
  {
    if |s| == 0 then []
    else
      var m := Min(n, |s|);
      [s[..m]] + Chunks(s[m..], n)
  }

  function Flatten<T>(parts: seq<seq<T>>): seq<T>
  {
    if |parts| == 0 then [] else parts[0] + Flatten(parts[1..])
  }

  function CeilDiv(a: nat, n: nat): nat
    requires n > 0
  {
    (a + n - 1) / n
  }

  /** Putting the pieces back together gives the input. */
  lemma {:induction false} ChunksFlatten<T>(s: seq<T>, n: nat)
    requires n > 0
    ensures Flatten(Chunks(s, n)) == s
    decreases |s|
  {
    if |s| > 0 {
      var m := Min(n, |s|);
      ChunksFlatten(s[m..], n);
      ChunksStep(s, n);
      assert Chunks(s, n)[1..] == Chunks(s[m..], n);
      assert s == s[..m] + s[m..];
    }
  }

  lemma MulAtLeast(k: int, n: int)
    requires k >= 1 && n > 0
    ensures k * n >= n
  {
    assert k * n == (k - 1) * n + n;
    assert (k - 1) * n >= 0;
  }

  /** The quotient is the only q with x == q * n + r and 0 <= r < n. */
  lemma DivUnique(x: int, n: int, q: int, r: int)
    requires n > 0 && 0 <= r < n && x == q * n + r
    ensures x / n == q
  {
    var q' := x / n;
    var r' := x % n;
    assert x == q' * n + r' && 0 <= r' < n;
    if q' < q {
      assert (q - q') * n == q * n - q' * n;
      MulAtLeast(q - q', n);
    } else if q' > q {
      assert (q' - q) * n == q' * n - q * n;
      MulAtLeast(q' - q, n);
    }
  }

  lemma DivStep(a: nat, n: nat)
    requires n > 0
    ensures (a + n) / n == a / n + 1
  {
    var q := a / n;
    var r := a % n;
    assert a == q * n + r;
    assert a + n == (q + 1) * n + r;
    DivUnique(a + n, n, q + 1, r);
  }

  /** There are ceil(|s| / n) pieces; none for an empty input. */
  lemma {:induction false} ChunksCount<T>(s: seq<T>, n: nat)
    requires n > 0
    ensures |Chunks(s, n)| == CeilDiv(|s|, n)
    decreases |s|
  {
    if |s| == 0 {
      DivUnique(n - 1, n, 0, n - 1);
    } else {
      var m := Min(n, |s|);
      ChunksCount(s[m..], n);
      assert |Chunks(s, n)| == 1 + |Chunks(s[m..], n)|;
      if |s| <= n {
        assert s[m..] == [];
        DivUnique(|s| + n - 1, n, 1, |s| - 1);
      } else {
        DivStep(|s| - n + n - 1, n);
        assert CeilDiv(|s|, n) == CeilDiv(|s| - n, n) + 1;
      }
    }
  }

  /** No piece is empty or longer than `n`, and all but the last are exactly
      `n` long. */
  lemma {:induction false} ChunksLengths<T>(s: seq<T>, n: nat)
    requires n > 0
    ensures forall k | 0 <= k < |Chunks(s, n)| :: 0 < |Chunks(s, n)[k]| <= n
    ensures forall k | 0 <= k < |Chunks(s, n)| - 1 :: |Chunks(s, n)[k]| == n
    decreases |s|
  {
    var c := Chunks(s, n);
    if |s| > 0 {
      var m := Min(n, |s|);
      var rest := Chunks(s[m..], n);
      ChunksLengths(s[m..], n);
      assert c == [s[..m]] + rest;
      if |s| <= n {
        assert s[m..] == [];
      }
      forall k | 0 <= k < |c| ensures 0 < |c[k]| <= n {
        if k > 0 { assert c[k] == rest[k - 1]; }
      }
      forall k | 0 <= k < |c| - 1 ensures |c[k]| == n {
        if k > 0 { assert c[k] == rest[k - 1]; }
      }
    }
  }

  lemma MulStep(k: int, n: int)
    ensures (k - 1) * n + n == k * n
  {
  }

  /** The first piece of a non-empty input is its first `n` elements (or all of
      them); the rest is the chunking of what follows. */
  lemma ChunksStep<T>(s: seq<T>, n: nat)
    requires n > 0 && |s| > 0
    ensures Chunks(s, n) == [s[..Min(n, |s|)]] + Chunks(s[Min(n, |s|)..], n)
  {
  }

  /** Element `j` of piece `k` is element `k * n + j` of the input. */
  lemma {:induction false} ChunksIndex<T>(s: seq<T>, n: nat, k: nat, j: nat)
    requires n > 0
    requires k < |Chunks(s, n)| && j < |Chunks(s, n)[k]|
    ensures k * n + j < |s| && Chunks(s, n)[k][j] == s[k * n + j]
    decreases |s|
  {
    var m := Min(n, |s|);
    var rest := Chunks(s[m..], n);
    ChunksStep(s, n);
    if k == 0 {
      assert Chunks(s, n)[k] == s[..m];
    } else {
      var previous := (k - 1) * n;
      MulStep(k, n);
      assert Chunks(s, n)[k] == rest[k - 1];
      ChunksIndex(s[m..], n, k - 1, j);
      assert m == n;
      assert rest[k - 1][j] == s[m..][previous + j];
      assert s[m..][previous + j] == s[previous + j + n];
    }
  }

  /** `parts` is the slicing of the binary string `chars` into pieces of `size`
      byte values: together they are the byte values of `chars`, there are
      ceil(|chars| / size) of them, none empty or longer than `size`, all but the
      last exactly `size` long, and byte `j` of piece `k` is the code of character
      `k * size + j`. */
  predicate SlicedBy(parts: seq<seq<Byte>>, chars: seq<BinaryChar>, size: int)
  {
    && size > 0
    && Flatten(parts) == CharCodes(chars)
    && |parts| == CeilDiv(|chars|, size)
    && (forall k | 0 <= k < |parts| :: 0 < |parts[k]| <= size)
    && (forall k | 0 <= k < |parts| - 1 :: |parts[k]| == size)
    && (forall k, j | 0 <= k < |parts| && 0 <= j < |parts[k]| ::
          k * size + j < |chars| && parts[k][j] == CharCode(chars[k * size + j]))
  }

  /** The reference chunking of the byte values is a slicing in that sense. */
  lemma ChunksAreSlicing(chars: seq<BinaryChar>, n: nat)
    requires n > 0
    ensures SlicedBy(Chunks(CharCodes(chars), n), chars, n)
  {
    var codes := CharCodes(chars);
    var parts := Chunks(codes, n);
    ChunksFlatten(codes, n);
    ChunksCount(codes, n);
    ChunksLengths(codes, n);
    forall k, j | 0 <= k < |parts| && 0 <= j < |parts[k]|
      ensures k * n + j < |chars| && parts[k][j] == CharCode(chars[k * n + j])
    {
      ChunksIndex(codes, n, k, j);
    }
  }

  /** The inner loop of `b64ToBlob`: the byte value of every character of a slice. */
  method ByteNumbers(slice: seq<BinaryChar>) returns (byteNumbers: seq<Byte>)
    ensures |byteNumbers| == |slice|
    ensures forall j | 0 <= j < |slice| :: byteNumbers[j] == CharCode(slice[j])
  {
    byteNumbers := [];
    var i := 0;
    while i < |slice|
      invariant 0 <= i <= |slice|
      invariant |byteNumbers| == i
      invariant forall j | 0 <= j < i :: byteNumbers[j] == CharCode(slice[j])
    {
      byteNumbers := byteNumbers + [CharCode(slice[i])];
      i := i + 1;
    }
  }

  /** The byte values of a slice are the slice of the byte values. */
  lemma SliceCodes(byteCharacters: seq<BinaryChar>, offset: nat, end: nat, byteNumbers: seq<Byte>)
    requires offset <= end <= |byteCharacters|
    requires |byteNumbers| == end - offset
    requires forall j | 0 <= j < end - offset :: byteNumbers[j] == CharCode(byteCharacters[offset..end][j])
    ensures byteNumbers == CharCodes(byteCharacters)[offset..end]
  {
  }

  /** One turn of the slicing loop: the chunking from `offset` is the slice up to
      `end` followed by the chunking from `end`. */
  lemma SliceStep<T>(s: seq<T>, offset: nat, n: nat)
    requires n > 0 && offset < |s|
    ensures Chunks(s[offset..], n) == [s[offset..Min(offset + n, |s|)]] + Chunks(s[Min(offset + n, |s|)..], n)
  {
    var tail := s[offset..];
    var end := Min(offset + n, |s|);
    ChunksStep(tail, n);
    assert tail[..Min(n, |tail|)] == s[offset..end];
    assert tail[Min(n, |tail|)..] == s[end..];
  }

  /** The outer loop of `b64ToBlob`: slices of `sliceSize` characters taken at
      offsets 0, sliceSize, 2 * sliceSize, ... while the offset is in range, each
      turned into its byte values. */
  method SliceToByteArrays(byteCharacters: seq<BinaryChar>, sliceSize: int) returns (byteArrays: seq<seq<Byte>>)
    requires sliceSize > 0
    ensures byteArrays == Chunks(CharCodes(byteCharacters), sliceSize)
  {
    ghost var codes := CharCodes(byteCharacters);
    byteArrays := [];
    var offset := 0;
    while offset < |byteCharacters|
      invariant 0 <= offset
      invariant byteArrays + Chunks(codes[Min(offset, |codes|)..], sliceSize) == Chunks(codes, sliceSize)
      decreases |byteCharacters| - offset
    {
      var end := Min(offset + sliceSize, |byteCharacters|);
      var slice := byteCharacters[offset..end];
      var byteNumbers := ByteNumbers(slice);
      SliceCodes(byteCharacters, offset, end, byteNumbers);
      SliceStep(codes, offset, sliceSize);
      assert byteArrays + Chunks(codes[offset..], sliceSize) == (byteArrays + [byteNumbers]) + Chunks(codes[end..], sliceSize);
      byteArrays := byteArrays + [byteNumbers];
      offset := offset + sliceSize;
    }
    assert codes[Min(offset, |codes|)..] == [];
  }

  /** `b64ToBlob(b64Data, contentType, sliceSize)`. A negative slice size makes the
      source loop forever on a non-empty input, so it is excluded. */
  method B64ToBlob(b64Data: string, contentType: Option<string>, sliceSize: Option<int>,
                   atob: string -> Option<seq<BinaryChar>>)
    returns (r: Result<Blob, string>)
    requires sliceSize.None? || sliceSize.value >= 0
    ensures atob(b64Data).None? <==> r == Failure(INVALID_BASE64_ERROR)
    ensures r.Success? ==>
              var chars := atob(b64Data).value;
              var size := SliceSizeOrDefault(sliceSize);
              && r.value.contentType == ContentTypeOrDefault(contentType)
              && r.value.parts == Chunks(CharCodes(chars), size)
              && SlicedBy(r.value.parts, chars, size)
  {
    var theContentType := ContentTypeOrDefault(contentType);
    var size := SliceSizeOrDefault(sliceSize);
    var decoded := atob(b64Data);
    if decoded.None? {
      return Failure(INVALID_BASE64_ERROR);
    }
    var byteCharacters := decoded.value;
    var byteArrays := SliceToByteArrays(byteCharacters, size);
    ChunksAreSlicing(byteCharacters, size);
    r := Success(Blob(byteArrays, theContentType));
  }
}

=== FILE: import_passwords.dfy ===
/** The import-passwords controller: how imported resources are prepared for
    bulk encryption and how the armored secrets are attached back to them.

    Resources are JavaScript objects that the controller mutates in place; here
    each is an immutable record whose optional fields stand for properties that
    may be absent, and a mutation is a new record. */
module ImportPasswords {
  import opened Wrappers

  /** One entry of a resource's `secrets` list. */
  datatype Secret = Secret(data: string)

  /** An imported resource: the fields the controller reads, adds or deletes,
      and every other field (name, uri, username, ...) it passes through. */
  datatype Resource = Resource(
    secretClear: Option<string>,
    userId: Option<string>,
    message: Option<string>,
    secrets: Option<seq<Secret>>,
    otherFields: map<string, string>)

  /** The controller's state: its tab, the progress counters and the resources
      being imported. */
  datatype Controller = Controller(tabId: int, progressObjective: int, progressStatus: int, resources: seq<Resource>)

  /** The rejection reason when the count of armored secrets does not match. */
  const ENCRYPTION_COUNT_ERROR: string := "There was a problem while encrypting the secrets"

  /** One encryption step and one save step per resource. */
  predicate ObjectiveCoversResources(c: Controller)
  {
    c.progressObjective == 2 * |c.resources|
  }

  /** The constructor: no progress yet and nothing to import. */
  function NewController(tabId: int): (c: Controller)
    ensures c.tabId == tabId
    ensures c.progressStatus == 0 && c.resources == []
    ensures c.progressObjective == 0 && ObjectiveCoversResources(c)
  {
    Controller(tabId, 0, 0, [])
  }

  /** `_prepareResources` on one resource: stamp the user id and move the clear
      secret into `message`. */
  function PrepareResource(resource: Resource, userId: string): Resource
  {
    resource.(userId := Some(userId), message := resource.secretClear, secretClear := None)
  }

  /** `_prepareResources`: the resources in the shape the bulk encryption expects. */
  function PrepareResources(resources: seq<Resource>, userId: string): (prepared: seq<Resource>)
    ensures |prepared| == |resources|
    ensures forall i | 0 <= i < |resources| ::
              && prepared[i].userId == Some(userId)
              && prepared[i].message == resources[i].secretClear
              && prepared[i].secretClear == None
              && prepared[i].secrets == resources[i].secrets
              && prepared[i].otherFields == resources[i].otherFields
  {
    seq(|resources|, i requires 0 <= i < |resources| => PrepareResource(resources[i], userId))
  }

  /** One iteration of the loop of `_addArmoredSecretsToResources`. */
  function AttachArmoredSecret(resource: Resource, armoredSecret: string): Resource
  {
    var withSecret :=
      if resource.message != Some("") then resource.(secrets := Some([Secret(armoredSecret)])) else resource;
    withSecret.(message := None, userId := None)
  }

  /** `_addArmoredSecretsToResources`. The loop runs even after the count check
      has rejected: it walks the armored secrets and stops (by a thrown TypeError
      that no one observes) past the last resource, so the first
      min(|armoredSecrets|, |resources|) resources are rewritten whatever the
      outcome. `updated` is the controller's resources afterwards. */
  method AddArmoredSecretsToResources(resources: seq<Resource>, armoredSecrets: seq<string>)
    returns (updated: seq<Resource>, result: Result<seq<Resource>, string>)
    ensures |updated| == |resources|
    ensures forall i | 0 <= i < |resources| && i < |armoredSecrets| ::
              && updated[i].message == None
              && updated[i].userId == None
              && updated[i].secrets == (if resources[i].message != Some("")
                                        then Some([Secret(armoredSecrets[i])])
                                        else resources[i].secrets)
              && updated[i].secretClear == resources[i].secretClear
              && updated[i].otherFields == resources[i].otherFields
    ensures forall i | |armoredSecrets| <= i < |resources| :: updated[i] == resources[i]
    ensures |armoredSecrets| == |resources| ==> result == Success(updated)
    ensures |armoredSecrets| != |resources| ==> result == Failure(ENCRYPTION_COUNT_ERROR)
  {
    var count := if |armoredSecrets| <= |resources| then |armoredSecrets| else |resources|;
    updated := resources;
    var i := 0;
    while i < count
      invariant 0 <= i <= count
      invariant |updated| == |resources|
      invariant forall j | 0 <= j < i :: updated[j] == AttachArmoredSecret(resources[j], armoredSecrets[j])
      invariant forall j | i <= j < |resources| :: updated[j] == resources[j]
    {
      updated := updated[i := AttachArmoredSecret(updated[i], armoredSecrets[i])];
      i := i + 1;
    }
    if |armoredSecrets| != |resources| {
      result := Failure(ENCRYPTION_COUNT_ERROR);
    } else {
      result := Success(updated);
    }
  }

  /** The reference for a whole import of one resource: the clear secret is gone
      and, unless it was empty, replaced by the one armored secret. */
  function ImportedResource(resource: Resource, armoredSecret: string): Resource
  {
    resource.(
      secretClear := None,
      message := None,
      userId := None,
      secrets := if resource.secretClear != Some("") then Some([Secret(armoredSecret)]) else resource.secrets)
  }

  /** Preparing then attaching leaves no helper field behind and attaches the
      secret exactly when the clear secret was not empty. */
  lemma PrepareThenAttach(resource: Resource, userId: string, armoredSecret: string)
    ensures AttachArmoredSecret(PrepareResource(resource, userId), armoredSecret)
            == ImportedResource(resource, armoredSecret)
  {
  }

  /** `encryptSecrets`: set the resources and the progress objective, sync the
      keyring, prepare and encrypt all the secrets, then attach them. */
  method EncryptSecrets(c: Controller, resources: seq<Resource>, userId: string,
                        sync: Outcome<string>, encryptAll: seq<Resource> -> Result<seq<string>, string>)
    returns (c': Controller, result: Result<seq<Resource>, string>)
    ensures c'.tabId == c.tabId
    ensures c'.progressObjective == 2 * |resources| && ObjectiveCoversResources(c')
    ensures sync.Fail? ==> c'.resources == resources && result == Failure(sync.error)
    // the controller's resources are the caller's objects, rewritten in place:
    // prepared when the encryption fails, and partly imported on a count mismatch
    ensures sync.Pass? && encryptAll(PrepareResources(resources, userId)).Failure? ==>
              && result == Failure(encryptAll(PrepareResources(resources, userId)).error)
              && c'.resources == PrepareResources(resources, userId)
    ensures sync.Pass? && encryptAll(PrepareResources(resources, userId)).Success? ==>
              var armored := encryptAll(PrepareResources(resources, userId)).value;
              && |c'.resources| == |resources|
              && (forall i | 0 <= i < |resources| && i < |armored| ::
                    c'.resources[i] == ImportedResource(resources[i], armored[i]))
              && (forall i | |armored| <= i < |resources| ::
                    c'.resources[i] == PrepareResource(resources[i], userId))
    ensures result.Success? <==>
              && sync.Pass?
              && encryptAll(PrepareResources(resources, userId)).Success?
              && |encryptAll(PrepareResources(resources, userId)).value| == |resources|
    ensures result.Success? ==>
              && result.value == c'.resources
              && |result.value| == |resources|
              && forall i | 0 <= i < |resources| ::
                   result.value[i] == ImportedResource(resources[i], encryptAll(PrepareResources(resources, userId)).value[i])
  {
    c' := c.(resources := resources, progressObjective := |resources| * 2);
    if sync.Fail? {
      result := Failure(sync.error);
      return;
    }
    var prepared := PrepareResources(c'.resources, userId);
    c' := c'.(resources := prepared);
    var encrypted := encryptAll(prepared);
    if encrypted.Failure? {
      result := Failure(encrypted.error);
      return;
    }
    var updated;
    updated, result := AddArmoredSecretsToResources(prepared, encrypted.value);
    c' := c'.(resources := updated);
    forall i | 0 <= i < |resources| && i < |encrypted.value|
      ensures updated[i] == ImportedResource(resources[i], encrypted.value[i])
    {
      PrepareThenAttach(resources[i], userId, encrypted.value[i]);
    }
  }
}

=== FILE: setup_import.dfy ===
/** The setup step that imports a user's private key: the controller checks its
    setup entity on construction, and `exec` accepts the key only if it is a
    private key, the server key is known, and the server does not already know
    the key. Key parsing and the legacy server verification are collaborators
    passed in as functions. */
module SetupImport {
  import opened Wrappers

  /** The fields of the setup entity the controller reads or writes. */
  datatype SetupEntity = SetupEntity(
    domain: string,
    serverPublicArmoredKey: Option<string>,
    userPrivateArmoredKey: Option<string>,
    userPublicArmoredKey: Option<string>)

  /** What the constructor may be given: a falsy value, an object of another
      class, or a setup entity. */
  datatype SetupEntityArg = Falsy | OtherObject | Instance(entity: SetupEntity)

  datatype Error =
    | Error(message: string)
    | GpgKeyError(message: string)

  const NULL_ENTITY_MESSAGE: string := "The setupEntity can't be null"
  const WRONG_TYPE_MESSAGE: string := "the setupEntity must be of type SetupEntity"
  const MISSING_SERVER_KEY_MESSAGE: string := "The server public key should have been provided before importing a private key"
  const KEY_ALREADY_USED_MESSAGE: string := "This key is already used by another user."

  datatype Controller = Controller(requestId: string, setupEntity: SetupEntity)

  /** A parsed private key: its fingerprint and its private and public armors. */
  datatype PrivateKey = PrivateKey(fingerprint: string, armored: string, publicArmored: string)

  /** One call to the legacy server verification. */
  datatype VerifyCall = VerifyCall(domain: string, serverPublicArmoredKey: string, fingerprint: string)

  /** The collaborators: `assertPrivateKeys` and whether `GpgAuth.verify` resolves. */
  datatype Services = Services(
    assertPrivateKeys: string -> Result<PrivateKey, Error>,
    verifySucceeds: VerifyCall -> bool)

  /** A run of `exec`: the verify calls made, the setup entity afterwards, and
      the error the promise rejects with, if any. */
  datatype ExecRun = ExecRun(verifyCalls: seq<VerifyCall>, setupEntity: SetupEntity, error: Option<Error>)

  /** The constructor's two checks. */
  function NewController(requestId: string, arg: SetupEntityArg): (r: Result<Controller, Error>)
    ensures r.Success? <==> arg.Instance?
    ensures arg.Falsy? ==> r == Failure(Error(NULL_ENTITY_MESSAGE))
    ensures arg.OtherObject? ==> r == Failure(Error(WRONG_TYPE_MESSAGE))
    ensures r.Success? ==> r.value.setupEntity == arg.entity && r.value.requestId == requestId
  {
    match arg
    case Falsy => Failure(Error(NULL_ENTITY_MESSAGE))
    case OtherObject => Failure(Error(WRONG_TYPE_MESSAGE))
    case Instance(entity) => Success(Controller(requestId, entity))
  }

  /** JavaScript truthiness of an optional string: absent and "" are falsy. */
  predicate Truthy(s: Option<string>)
  {
    s.Some? && s.value != ""
  }

  /** `_assertImportKeyNotUsed`: the verify calls made and the error raised. The
      key counts as used exactly when the server verification succeeds. */
  function AssertImportKeyNotUsed(entity: SetupEntity, fingerprint: string, s: Services): (r: (seq<VerifyCall>, Option<Error>))
    ensures !Truthy(entity.serverPublicArmoredKey) ==> r == ([], Some(Error(MISSING_SERVER_KEY_MESSAGE)))
    ensures Truthy(entity.serverPublicArmoredKey) ==>
              var call := VerifyCall(entity.domain, entity.serverPublicArmoredKey.value, fingerprint);
              && r.0 == [call]
              && (r.1.Some? <==> s.verifySucceeds(call))
              && (r.1.Some? ==> r.1.value == GpgKeyError(KEY_ALREADY_USED_MESSAGE))
  {
    if !Truthy(entity.serverPublicArmoredKey) then ([], Some(Error(MISSING_SERVER_KEY_MESSAGE)))
    else
      var call := VerifyCall(entity.domain, entity.serverPublicArmoredKey.value, fingerprint);
      var keyAlreadyUsed := s.verifySucceeds(call);
      ([call], if keyAlreadyUsed then Some(GpgKeyError(KEY_ALREADY_USED_MESSAGE)) else None)
  }

  /** `exec`: check the key form, check the key is not used, then record both armors. */
  function Exec(c: Controller, armoredKey: string, s: Services): (r: ExecRun)
    // the entity's key fields are written only on success, and nothing else is
    ensures r.error.Some? ==> r.setupEntity == c.setupEntity
    ensures r.error.None? ==>
              && s.assertPrivateKeys(armoredKey).Success?
              && r.setupEntity == c.setupEntity.(
                   userPrivateArmoredKey := Some(s.assertPrivateKeys(armoredKey).value.armored),
                   userPublicArmoredKey := Some(s.assertPrivateKeys(armoredKey).value.publicArmored))
    // a key that is not a private key fails first, before anything is checked
    ensures s.assertPrivateKeys(armoredKey).Failure? ==>
              r.error == Some(s.assertPrivateKeys(armoredKey).error) && r.verifyCalls == []
    // a missing server key fails before any verify call
    ensures s.assertPrivateKeys(armoredKey).Success? && !Truthy(c.setupEntity.serverPublicArmoredKey) ==>
              r.error == Some(Error(MISSING_SERVER_KEY_MESSAGE)) && r.verifyCalls == []
    // with a private key and a server key: one verify call, and success exactly when it fails
    ensures s.assertPrivateKeys(armoredKey).Success? && Truthy(c.setupEntity.serverPublicArmoredKey) ==>
              var call := VerifyCall(c.setupEntity.domain, c.setupEntity.serverPublicArmoredKey.value,
                                     s.assertPrivateKeys(armoredKey).value.fingerprint);
              && r.verifyCalls == [call]
              && (s.verifySucceeds(call) <==> r.error == Some(GpgKeyError(KEY_ALREADY_USED_MESSAGE)))
              && (!s.verifySucceeds(call) <==> r.error.None?)
  {
    match s.assertPrivateKeys(armoredKey)
    case Failure(e) => ExecRun([], c.setupEntity, Some(e))
    case Success(key) =>
      var (calls, notUsed) := AssertImportKeyNotUsed(c.setupEntity, key.fingerprint, s);
      if notUsed.Some? then ExecRun(calls, c.setupEntity, notUsed)
      else
        var entity := c.setupEntity.(userPrivateArmoredKey := Some(key.armored), userPublicArmoredKey := Some(key.publicArmored));
        ExecRun(calls, entity, None)
  }

  datatype Status = SUCCESS | ERROR

  /** A message emitted on the worker port for the request. */
  datatype PortMessage = PortMessage(requestId: string, status: Status, error: Option<Error>)

  /** `_exec`: run `exec` and emit exactly one message for the request: SUCCESS,
      or ERROR carrying the error. */
  function ExecAndReport(c: Controller, armoredKey: string, s: Services): (r: (Controller, seq<PortMessage>))
    ensures |r.1| == 1
    ensures r.1[0].requestId == c.requestId
    ensures r.1[0].status == SUCCESS <==> Exec(c, armoredKey, s).error.None?
    ensures r.1[0].status == ERROR ==> r.1[0].error == Exec(c, armoredKey, s).error
    ensures r.1[0].status == SUCCESS ==> r.1[0].error.None?
    ensures r.0 == c.(setupEntity := Exec(c, armoredKey, s).setupEntity)
  {
    var run := Exec(c, armoredKey, s);
    var c' := c.(setupEntity := run.setupEntity);
    match run.error
    case None => (c', [PortMessage(c.requestId, SUCCESS, None)])
    case Some(e) => (c', [PortMessage(c.requestId, ERROR, Some(e))])
  }
}

=== FILE: sso_passphrase.dfy ===
/** The two-stage unwrap of an SSO passphrase, as its test pins it down: the
    base64 ciphertext is decoded, decrypted with AES-GCM under (key2, iv2), and
    the result decrypted again under (key1, iv1). The two stages fail with
    distinct errors. Base64 decoding (section 4 of RFC 4648) and AES-GCM are
    collaborators passed in as functions; a decryption that fails returns None. */
module SsoPassphrase {
  import opened Wrappers

  type Bytes = seq<bv8>

  /** A WebCrypto key handle, known only by its identity: the algorithm a call uses
      is the one named in its `AlgorithmParams`. */
  datatype CryptoKey = CryptoKey(id: nat)

  /** The algorithm argument of `crypto.subtle.decrypt`. */
  datatype AlgorithmParams = AlgorithmParams(name: string, iv: Bytes)

  const AES_GCM: string := "AES-GCM"

  /** Stage 1 failed: the local kit no longer matches the one the server holds.
      Stage 2 failed: the local kit was changed after stage 1 succeeded. */
  datatype SsoKitError = OutdatedSsoKitError | UnexpectedSsoKitDecryptionError

  /** One call to `crypto.subtle.decrypt`, in the order made. */
  datatype DecryptCall = DecryptCall(algorithm: AlgorithmParams, key: CryptoKey, data: Bytes)

  /** A run of the unwrap: the decrypt calls made and the passphrase or error. */
  datatype Unwrap = Unwrap(calls: seq<DecryptCall>, result: Result<Bytes, SsoKitError>)

  type Decrypt = (AlgorithmParams, CryptoKey, Bytes) -> Option<Bytes>

  /** `DecryptSsoPassphraseService.decrypt(ciphertext, key1, key2, iv1, iv2)`. */
  function DecryptSsoPassphrase(base64Ciphertext: string, key1: CryptoKey, key2: CryptoKey, iv1: Bytes, iv2: Bytes,
                                base64Decode: string -> Bytes, decrypt: Decrypt): (r: Unwrap)
    // stage 1 is always attempted, on the decoded input, with AES-GCM, iv2 and key2
    ensures |r.calls| >= 1
    ensures r.calls[0] == DecryptCall(AlgorithmParams(AES_GCM, iv2), key2, base64Decode(base64Ciphertext))
    // a stage-1 failure is an outdated kit, and stops there
    ensures decrypt(r.calls[0].algorithm, key2, r.calls[0].data).None? <==> r.result == Failure(OutdatedSsoKitError)
    ensures r.result == Failure(OutdatedSsoKitError) ==> |r.calls| == 1
    // otherwise stage 2 decrypts the stage-1 output with AES-GCM, iv1 and key1
    ensures r.result != Failure(OutdatedSsoKitError) ==>
              && |r.calls| == 2
              && r.calls[1] == DecryptCall(AlgorithmParams(AES_GCM, iv1), key1,
                                           decrypt(r.calls[0].algorithm, key2, r.calls[0].data).value)
              && (decrypt(r.calls[1].algorithm, key1, r.calls[1].data).None? <==>
                    r.result == Failure(UnexpectedSsoKitDecryptionError))
              && (r.result.Success? ==> r.result.value == decrypt(r.calls[1].algorithm, key1, r.calls[1].data).value)
  {
    var ciphertext := base64Decode(base64Ciphertext);
    var first := DecryptCall(AlgorithmParams(AES_GCM, iv2), key2, ciphertext);
    match decrypt(first.algorithm, first.key, first.data)
    case None => Unwrap([first], Failure(OutdatedSsoKitError))
    case Some(intermediate) =>
      var second := DecryptCall(AlgorithmParams(AES_GCM, iv1), key1, intermediate);
      match decrypt(second.algorithm, second.key, second.data)
      case None => Unwrap([first, second], Failure(UnexpectedSsoKitDecryptionError))
      case Some(passphrase) => Unwrap([first, second], Success(passphrase))
  }

  /** Round trip: a passphrase encrypted under (key1, iv1), then under (key2, iv2),
      then base64-encoded, unwraps to itself, given a decoder that inverts the
      encoder and a decryption that inverts the encryption. */
  lemma UnwrapRoundTrip(passphrase: Bytes, key1: CryptoKey, key2: CryptoKey, iv1: Bytes, iv2: Bytes,
                        base64Encode: Bytes -> string, base64Decode: string -> Bytes,
                        encrypt: (AlgorithmParams, CryptoKey, Bytes) -> Bytes, decrypt: Decrypt)
    requires forall b :: base64Decode(base64Encode(b)) == b
    requires forall alg, k, m :: decrypt(alg, k, encrypt(alg, k, m)) == Some(m)
    ensures
      var inner := encrypt(AlgorithmParams(AES_GCM, iv1), key1, passphrase);
      var outer := encrypt(AlgorithmParams(AES_GCM, iv2), key2, inner);
      var r := DecryptSsoPassphrase(base64Encode(outer), key1, key2, iv1, iv2, base64Decode, decrypt);
      r.result == Success(passphrase) && |r.calls| == 2
  {
    var inner := encrypt(AlgorithmParams(AES_GCM, iv1), key1, passphrase);
    var outer := encrypt(AlgorithmParams(AES_GCM, iv2), key2, inner);
    assert base64Decode(base64Encode(outer)) == outer;
    assert decrypt(AlgorithmParams(AES_GCM, iv2), key2, outer) == Some(inner);
    assert decrypt(AlgorithmParams(AES_GCM, iv1), key1, inner) == Some(passphrase);
  }

  /** The two failure kinds stay apart: a stage-2 failure is never reported as an
      outdated kit, and a stage-1 failure never as an unexpected decryption error. */
  lemma FailureKindsAreDistinct(base64Ciphertext: string, key1: CryptoKey, key2: CryptoKey, iv1: Bytes, iv2: Bytes,
                                base64Decode: string -> Bytes, decrypt: Decrypt)
    ensures
      var r := DecryptSsoPassphrase(base64Ciphertext, key1, key2, iv1, iv2, base64Decode, decrypt);
      var stage1 := decrypt(AlgorithmParams(AES_GCM, iv2), key2, base64Decode(base64Ciphertext));
      && (stage1.None? ==> r.result == Failure(OutdatedSsoKitError))
      && (stage1.Some? && decrypt(AlgorithmParams(AES_GCM, iv1), key1, stage1.value).None? ==>
            r.result == Failure(UnexpectedSsoKitDecryptionError))
  {
  }
}

=== FILE: wrappers.dfy ===
/** Outcome datatypes shared by every module of the model:
    `Option` for a JavaScript value that may be `undefined`/`null`,
    `Result` for a promise that resolves or rejects, and
    `Outcome` for a promise that resolves with no useful value. */
module Wrappers {

  datatype Option<+T> = None | Some(value: T)

  datatype Result<+T, +E> = Success(value: T) | Failure(error: E)

  datatype Outcome<+E> = Pass | Fail(error: E)
}
